=== FILE: README.md ===
# finanzas-dashboard: the sync-and-derive pipeline in Dafny

The dashboard is one Streamlit page. Each time it loads, it does the following:

1. Pulls every record of a Notion database through cursor pagination.
2. Flattens each record's nested properties into a row: Concepto, Tipo, Fecha, Importe and Mes.
3. Rewrites a cached CSV table, but only when the new table differs from the cached one.
4. Reads the table back, recomputing each row's period (`Mes`) from its date and signing each amount by its category.
5. Derives the views on the page:
   - the sidebar filter
   - five KPI totals
   - the (period, category) cash-flow table
   - investment per period against a fixed target
   - the running balance
   - the category distribution of the latest period

This project models that pipeline as pure functions over immutable data and proves what each step promises.

Modules, in pipeline order:

- `Wrappers`: the `Option` and `Result` types.
- `Json`: `Value`, the decoded JSON shape (null, bool, number, string, list, mapping). It holds `SafeText`, the forgiving key-path walk, and `Lookup`, a strict reference walk that `SafeText` is proved against.
- `Dates`:
  - the ISO 8601 calendar dates that the date parser accepts
  - the `YYYY-MM` label of a month period
  - the order that `sort_values("Fecha")` uses, with missing dates last
- `LexOrder`: Python's string order, used by `max()` on the period column and for sorting group keys. It also lifts that order to tuples of strings.
- `Normalize`: one raw record flattened into a `Row`, with the exceptions the loop can raise. It also covers the whole batch, which aborts on the first bad record.
- `Fetch`: the pagination loop. The remote service is a sequence of pages, and request `i` is answered by page `i`.
- `Cache`: the write-or-skip decision, and the whole refresh run.
- `Load`: reading the table back, covering the parsed date, the recomputed period and the `Signo` column.
- `Aggregate`:
  - the filter
  - category totals and the KPIs
  - a generic sorted `groupby(...).sum()`
  - the (period, category) cash-flow table
- `Views`: investment against the target, and the distribution of the latest period, both as written and corrected (see Findings).
- `Balance`: the date sort and the running balance.

Amounts are exact reals, so the conservation laws of the model hold exactly. In the source they can fail in two ways: sums of floats are rounded, and `groupby` drops rows whose category is empty (see Left out). A missing amount is `None`, and it counts as zero wherever pandas skips or fills it.

Facts about `main.py` that shape the model:

- **Flattening can raise.** The row loop raises in four cases: a record without `properties`, a `properties` value that is not a mapping, an amount property that is not a mapping, and a date string that `pd.to_datetime` cannot parse. These are the four `NormalizeError` cases, and a raise aborts the whole refresh.
- **Undated rows get "NaT".** Flattening gives an undated row without an explicit Mes label the period "". Loading, however, always recomputes the period from the date, so after loading an undated row's period is the string "NaT".
- **The latest period can be "NaT".** `max()` over the period column is the lexicographic maximum. Among `YYYY-MM` labels that is the latest calendar month (`Dates.PeriodLabelOrder`), but "NaT" sorts after every such label. This is recorded under Findings.
- **The date sort is not stable.** `sort_values` uses pandas' default `quicksort`, which is not stable. The model uses a stable sort; see Left out.

## Model

| member | source | states |
|---|---|---|
| Json.SafeText | main.py:146-151 | The walk never fails: the result is a truthy value or the empty string, and a truthy value with no keys left comes back unchanged |
| Json.SafeTextIsLookup | main.py:146-151 | `safe_text` returns the value that a strict walk finds, when every key is present and the value is truthy, and "" in every other case |
| Json.MissingKeyYieldsEmpty | main.py:147-150 | If the key of any step is missing where the walk has arrived, the result is "" |
| Json.ScalarMidPathYieldsEmpty | main.py:150 | A value that is neither a list nor a mapping, met with keys still to go, collapses the walk to "" |
| Json.ListStandsForFirstElement | main.py:148-149 | An empty list behaves as `{}`, and a non-empty list as its first element |
| Json.EmptyObjectYieldsEmpty | main.py:150-151 | Once the walk has fallen back to `{}`, it ends in "" whatever keys remain |
| Json.LookupAppend | main.py:147 | Walking the keys `p + q` is walking `p`, then `q` from where `p` ended |
| Json.PropertyThenPath | main.py:172-176 | Taking `p.get(name, {})` and then walking the rest of the path is walking the whole path from `p` |
| Dates.ParseIsoDate | main.py:178 | A parsed date is a real calendar day whose year, month and day are the digits at positions 0-3, 5-6 and 8-9 of the string; a string of that shape whose digits name a real day always parses |
| Dates.IsoDateRoundTrip | main.py:178 | Every real calendar day parses back from its `YYYY-MM-DD` text, with or without a `T` time part after it |
| Dates.PeriodLabelOrder | main.py:265 | Python's string order on two `YYYY-MM` labels is the calendar order of the months they name |
| Dates.DigitsOrder | main.py:265 | Between digit strings of the same length, string order is numeric order |
| Dates.PeriodLabelIsPrefix | main.py:178 | `strftime("%Y-%m")` of a parsed date's month is exactly the first seven characters of the date string |
| Dates.SortsNoLaterTransitive | main.py:237 | The sort order of dates, with missing dates last, is transitive |
| LexOrder.StrLessTransitive | main.py:265 | Python's string order is transitive |
| LexOrder.StrLessTotal | main.py:265 | Python's string order is total |
| LexOrder.KeyLessTransitive | main.py:328 | The order on group-key tuples is transitive |
| LexOrder.KeyLessTotal | main.py:328 | The order on group-key tuples is total |
| LexOrder.StrLessAppend | main.py:265 | Comparing two strings whose first parts have the same length compares the first parts, and the second parts only on a tie |
| LexOrder.MaxStr | main.py:265 | `max()` of a non-empty column is one of its values, and no value exceeds it |
| Normalize.TextPropertyWalk | main.py:172-176 | Each text column is the walk of the whole key path from the properties mapping; a missing property reads as "" |
| Normalize.AmountProperty | main.py:175 | Reading the amount fails exactly when the property exists and is not a mapping; an absent property gives no amount; a numeric `number` entry is read as the amount, and a present amount is that entry |
| Normalize.DerivePeriod | main.py:176-178 | A non-empty explicit period is kept. Otherwise a non-empty date gives its first seven characters, and fails exactly when it does not parse. "" is derived when both are empty |
| Normalize.NormalizeRecord | main.py:170-172 | A record that is not a mapping or lacks `properties`, or whose `properties` is not a mapping, fails with the matching error |
| Normalize.NormalizeRecordSucceeds | main.py:171-186 | A record with a properties mapping is flattened exactly when its amount property can be read and its period can be derived. A non-mapping amount is reported as AmountNotMapping even when the date is bad too, because the amount is read first; otherwise a bad date is reported as UnparsableDate with its text |
| Normalize.NormalizedRowFields | main.py:172-186 | The row's Concepto, Tipo and Fecha are the key-path walks from the record itself. Its Mes follows the derivation rule |
| Normalize.NormalizedAmount | main.py:175 | The row's Importe is the number at `properties / Importe (€) / number` of the record: a present Importe was found there, and a number found there is the row's Importe |
| Normalize.MissingPropertyGivesEmptyText | main.py:172-176 | A missing property gives "" in its text column and no amount; with no Fecha and no Mes, the period is "" |
| Normalize.NormalizeAll | main.py:169-186 | The batch succeeds exactly when every record flattens, and then row `i` is record `i` flattened. Otherwise the error is that of the first record that fails |
| Fetch.FetchAll | main.py:160-167 | Requests stop at the first page without `has_more`, and every earlier page has it. The first request carries no cursor, and request `i+1` carries page `i`'s `next_cursor`. The records are the fetched pages' results concatenated in page order |
| Fetch.FlattenMembership | main.py:164 | A record is fetched exactly when it is among the results of some fetched page |
| Cache.Sync | main.py:190-194 | Afterwards the cache holds exactly the new rows, and "unchanged" is reported exactly when the cache already held them |
| Cache.SyncIdempotent | main.py:190-194 | Synchronising the same rows a second time reports "unchanged" and leaves the cache alone |
| Cache.SyncWritesIffDifferent | main.py:190-191 | A write happens exactly when no cache exists or it differs from the new table; the first synchronisation always writes |
| Cache.Outcome | main.py:169-194 | A run fails exactly when some fetched record cannot be flattened, with the first such record's error. Otherwise the cache holds those records flattened, in order |
| Cache.Refresh | main.py:154-194 | A missing credential stops the run before any request. Otherwise the requests made and the outcome follow from pagination and from the fetched records |
| Load.SignLaw | main.py:208 | Ingreso and Ahorro are signed `+importe`, Gasto and Inversión `-importe`, a missing amount counts as 0, and any other category has no sign |
| Load.Signo | main.py:208 | A row has a sign exactly when its category is Ingreso, Ahorro, Gasto or Inversión, and the sign is plus or minus its amount, a missing amount counting as 0 |
| Load.LoadRow | main.py:205-207 | Loading keeps Concepto, Tipo and Importe and parses Fecha. Mes becomes the date string's first seven characters, or "NaT" when the date does not parse |
| Load.LoadIgnoresCachedPeriod | main.py:207 | The cached Mes has no effect on the loaded row |
| Load.DerivedPeriodSurvivesLoad | main.py:176-207 | A period that flattening derived from the date is reproduced exactly by loading |
| Load.Load | main.py:200-209 | No cache gives no table; otherwise every cached row is loaded, in order, keeping its Concepto, Tipo and Importe, with its date parsed and its period recomputed |
| Aggregate.Filter | main.py:291 | The filter keeps exactly the rows whose category and period are both selected |
| Aggregate.FilterAppend | main.py:291 | Filtering distributes over concatenation, so the rows keep their original order |
| Aggregate.FilterAllSelected | main.py:289-291 | The default selection, every category and period present, keeps the whole table |
| Aggregate.Where | main.py:249 | `df[df[c] == v]` keeps exactly the rows whose cell in column `c` holds `v` |
| Aggregate.WhereAppend | main.py:249 | Selecting distributes over concatenation, so the selected rows keep their order and multiplicity |
| Aggregate.WhereSingle | main.py:266 | A single row is selected exactly when its cell holds the value, so with WhereAppend the selection is the subsequence of matching rows |
| Aggregate.TotalOf | main.py:301-304 | A category's KPI total is the sum of the amounts of exactly the rows of that category |
| Aggregate.CurrentAccountIsSignedTotal | main.py:301-305 | Ingreso - Gasto - Ahorro - Inversión equals the sum of the `Signo` column minus twice the savings |
| Aggregate.ComputeKpis | main.py:301-305 | Each KPI is its category's total, and the current account is the signed total minus twice the savings |
| Aggregate.AddTo | main.py:328 | Adding an amount under a key to a sorted group table keeps the keys sorted and adds the key. Only that key's total grows, by the amount, and so does the grand total |
| Aggregate.GroupSum | main.py:328 | One group per key value present, keys strictly ascending. Each group's total is the sum of its rows' amounts, and all totals add up to the total amount |
| Aggregate.GroupTotalsAreRowSums | main.py:328 | Every group holds exactly the sum of the amounts of the rows with its key, and has a key of the columns' arity |
| Aggregate.MonthlyByCategory | main.py:328 | The cash-flow table has (period, category) keys in ascending order, each group holding the sum of the amounts of the rows with that pair, and the groups add up to the total amount |
| Aggregate.MonthlyByCategoryConserves | main.py:328 | The (period, category) sums add up to the filtered total, and there is a group for exactly the pairs that occur |
| Views.SumWithin | main.py:266 | Summing by key within `df[df[c] == v]` is summing by the longer key that starts with `c` |
| Views.InvestmentVsTarget | main.py:249-250 | There is one point per period with Inversión rows, periods strictly ascending. Each point holds that period's invested sum and the same target, and the points add up to the whole investment total |
| Views.LatestPeriod | main.py:265 | For an empty table there is no latest period. Otherwise it is a period present in the table, and no row's period exceeds it |
| Views.PeriodDistribution | main.py:266 | Grouping a period's rows by category gives exactly the categories of that period, each with its (period, category) sum, adding up to the period's total |
| Views.MonthDistribution | main.py:265-266 | For an empty table the distribution is empty and does not fail. Otherwise it has one group per category present in the maximal period, in category order, each holding that (period, category) sum, and the groups add up to the period's total |
| Views.LoadRowIsWellLoaded | main.py:206-207 | A loaded row has either a valid date and that date's `YYYY-MM`, or no date and "NaT" |
| Views.UndatedRowMasksLatestMonth | main.py:265-266 | With one dated January row and one undated row, `max()` picks "NaT", and the distribution shows only the undated row |
| Views.LatestDatedPeriodIsCalendar | main.py:265-268 | The latest period among dated rows is never "NaT", and equals `max()` whenever every row is dated |
| Views.LatestDatedPeriodIsLatestMonth | main.py:265-268 | Among loaded rows, the corrected period is the month of a dated row, and no dated row falls in a later calendar month |
| Views.MonthDistributionDated | main.py:265-268 | The corrected distribution is empty when no row is dated. Otherwise it has one group per category present in the latest calendar period, in category order, each holding that (period, category) sum, and the groups add up to the period's total |
| Views.DatedDistributionShowsLatestMonth | main.py:265-268 | On the same two rows, the corrected distribution shows the January row |
| Balance.Insert | main.py:237 | Insertion into a date-sorted table keeps it sorted and adds exactly one row. The new row comes before the rows that share its date, and the signed total grows by its sign |
| Balance.SortByDate | main.py:237 | The sort is by date with missing dates last, and is a permutation. Rows sharing a date, or lacking one, keep their order; the signed total is unchanged |
| Balance.CumulativeSum | main.py:238 | Entry `i` is the signed total of rows `0..i`, skipping unsigned rows, and is missing where row `i` has no sign |
| Balance.BalanceSeries | main.py:236-238 | The balance series is as long as the input, over the rows in date order. When its last value is present, that value is the signed total of all the rows |

## Left out

- The Streamlit page is not modelled: configuration, CSS, widgets, metrics display, messages, the mobile helpers and the order of the page's sections. Only the expressions that compute what it shows are.
- Plotly figure construction is rendering and is not modelled.
- Requests to the Notion client are not modelled: the service becomes a sequence of pages.
- Reading credentials from secrets or the environment is not modelled: they become `Config` fields, and the investment target becomes a parameter.
- The CSV file is an in-memory `Option<seq<Row>>`, so the dtype changes of a real `read_csv` round trip are not modelled. Empty strings, for example, come back as NaN. Cache.SyncIdempotent therefore holds for exact storage. Against a real file, a table with empty text cells could compare unequal on every run. An empty Tipo also comes back as NaN, and `groupby` drops NaN keys by default. So in the source, Aggregate.MonthlyByCategoryConserves and the per-category sums of Views.MonthDistribution leave those rows out of the groups, where the model keeps them under the category "".
- Normalize.NormalizeRecord: a non-string value at a text path is read as "". The source would keep the raw value, for instance a number or a mapping, in the column.
- Normalize.AmountProperty: a `number` entry that is not a JSON number is read as no amount, where the source would keep the raw value.
- Dates.ParseIsoDate: only `YYYY-MM-DD`, optionally followed by `T` and a time, is a date. Other formats that pandas accepts are not recognised, and the time part is not validated. Years are 0000-9999 instead of pandas' Timestamp range.
- Load.Load: an empty record list is loaded as an empty table. In the source, `pd.DataFrame([])` has no columns, so the file written for it holds no header, and `read_csv` then raises "No columns to parse from file": on the first run at the load, and on later runs at the cache comparison. The page crashes where the model shows empty views. Cache.Sync likewise stores and compares the empty table without raising.
- Load.Load: `to_datetime` on a whole column can infer one format from the first value and reject the others; each date is parsed on its own instead.
- Balance.SortByDate orders by calendar day only. `sort_values("Fecha")` also orders rows of one day by their time of day, and the model does not, so same-day rows with different times may come out in another order. The running balance at such rows can then differ, though not the final total.
- Balance.SortByDate is a stable sort. The source's `sort_values` uses an unstable quicksort, so rows that share a date may come out in another order. The running balance at such rows can then differ, though not the final total.
- Fetch.FetchAll requires that some page reports `has_more` false. A service that never does would keep the source looping forever, and that case is not modelled.
- The descending sort of the detail table is display only and is not modelled.
- The early return of `main` when no table could be loaded is not modelled as such. A filter that leaves no rows still reaches the pie, and Views.MonthDistribution returns an empty view for that empty table. An empty cache file crashes the load before either point (see the Load.Load line).
- `META_ERASMUS` is read but never used by the page, and is not modelled.

## Findings

| source | as written | input that shows it | evidently intended | confidence | as-written member | corrected member |
|---|---|---|---|---|---|---|
| main.py:265-268 | `df["Mes"].max()` takes the lexicographic maximum of the periods after loading. An undated row's period is the string "NaT", which sorts after every `YYYY-MM`, so the pie and its title show "NaT" | A table with a Gasto of 10 dated 2024-01-05 and a Gasto of 5 without a date: the distribution is `[Gasto: 5]`, titled "Distribución NaT" | The latest calendar month, 2024-01, showing `[Gasto: 10]` | medium; not executed | Views.UndatedRowMasksLatestMonth | Views.MonthDistributionDated |

=== FILE: aggregate.dfy ===
/** The derived views of `main` and the plot helpers: the sidebar filter
    (main.py:291), the KPI totals (main.py:301-305), the group-by sums
    (main.py:328, 249, 266), investment against its target (main.py:249-250)
    and the distribution of the latest month (main.py:265-266). */
module Aggregate {
  import opened LexOrder
  import opened Load

  // ---------------------------------------------------------------------
  // Selection

  /** The sidebar filter: the row's category and period are both selected. */
  predicate Selected(r: LoadedRow, tipos: set<string>, meses: set<string>)
  {
    r.tipo in tipos && r.mes in meses
  }

  /** `df[df["Tipo"].isin(tipo_sel) & df["Mes"].isin(mes_sel)]`. */
  function Filter(rows: seq<LoadedRow>, tipos: set<string>, meses: set<string>): (r: seq<LoadedRow>)
    ensures |r| <= |rows|
    ensures forall x :: x in r <==> x in rows && Selected(x, tipos, meses)
  {
    if |rows| == 0 then []
    else
      var n := |rows| - 1;
      var kept := Filter(rows[..n], tipos, meses);
      assert rows == rows[..n] + [rows[n]];
      if Selected(rows[n], tipos, meses) then kept + [rows[n]] else kept
  }

  /** Filtering keeps the original order: it distributes over concatenation. */
  lemma {:induction false} FilterAppend(a: seq<LoadedRow>, b: seq<LoadedRow>, tipos: set<string>, meses: set<string>)
    ensures Filter(a + b, tipos, meses) == Filter(a, tipos, meses) + Filter(b, tipos, meses)
    decreases |b|
  {
    if |b| == 0 {
      assert a + b == a;
    } else {
      var n := |b| - 1;
      assert (a + b)[..|a + b| - 1] == a + b[..n];
      assert (a + b)[|a + b| - 1] == b[n];
      FilterAppend(a, b[..n], tipos, meses);
    }
  }

  /** The default selection (every category and period present) shows every row. */
  lemma {:induction false} FilterAllSelected(rows: seq<LoadedRow>, tipos: set<string>, meses: set<string>)
    requires forall i :: 0 <= i < |rows| ==> rows[i].tipo in tipos && rows[i].mes in meses
    ensures Filter(rows, tipos, meses) == rows
    decreases |rows|
  {
    if |rows| > 0 {
      var n := |rows| - 1;
      FilterAllSelected(rows[..n], tipos, meses);
      assert rows == rows[..n] + [rows[n]];
    }
  }

  // ---------------------------------------------------------------------
  // Columns, keys and sums

  /** The text columns rows can be grouped by. */
  datatype Column = Mes | Tipo

  function Cell(r: LoadedRow, c: Column): string
  {
    match c
    case Mes => r.mes
    case Tipo => r.tipo
  }

  /** The group key of a row for `groupby(cols)`. */
  function KeyOf(r: LoadedRow, cols: seq<Column>): (k: seq<string>)
    ensures |k| == |cols|
  {
    seq(|cols|, i requires 0 <= i < |cols| => Cell(r, cols[i]))
  }

  /** `df[df[c] == v]`. */
  function Where(rows: seq<LoadedRow>, c: Column, v: string): (r: seq<LoadedRow>)
    ensures forall x :: x in r <==> x in rows && Cell(x, c) == v
  {
    if |rows| == 0 then []
    else
      var n := |rows| - 1;
      var kept := Where(rows[..n], c, v);
      assert rows == rows[..n] + [rows[n]];
      if Cell(rows[n], c) == v then kept + [rows[n]] else kept
  }

  /** Selecting keeps the original order: it distributes over concatenation. */
  lemma {:induction false} WhereAppend(a: seq<LoadedRow>, b: seq<LoadedRow>, c: Column, v: string)
    ensures Where(a + b, c, v) == Where(a, c, v) + Where(b, c, v)
    decreases |b|
  {
    if |b| == 0 {
      assert a + b == a;
    } else {
      var n := |b| - 1;
      assert (a + b)[..|a + b| - 1] == a + b[..n];
      assert (a + b)[|a + b| - 1] == b[n];
      WhereAppend(a, b[..n], c, v);
    }
  }

  /** A single row is selected exactly when its cell holds the value. */
  lemma WhereSingle(x: LoadedRow, c: Column, v: string)
    ensures Where([x], c, v) == if Cell(x, c) == v then [x] else []
  {
    assert [x][..0] == [];
  }

  /** `["Importe"].sum()`: missing amounts count as zero. */
  function TotalAmount(rows: seq<LoadedRow>): real
  {
    if |rows| == 0 then 0.0 else TotalAmount(rows[..|rows| - 1]) + Amount(rows[|rows| - 1])
  }

  /** The sum of the `Signo` column, skipping rows without a sign. */
  function SignedTotal(rows: seq<LoadedRow>): real
  {
    if |rows| == 0 then 0.0 else SignedTotal(rows[..|rows| - 1]) + Signo(rows[|rows| - 1]).GetOr(0.0)
  }

  /** The amounts of the rows whose key is `k`. */
  function SumWhere(rows: seq<LoadedRow>, cols: seq<Column>, k: seq<string>): real
  {
    if |rows| == 0 then 0.0
    else
      var n := |rows| - 1;
      SumWhere(rows[..n], cols, k) + (if KeyOf(rows[n], cols) == k then Amount(rows[n]) else 0.0)
  }

  lemma TotalAmountSnoc(s: seq<LoadedRow>, x: LoadedRow)
    ensures TotalAmount(s + [x]) == TotalAmount(s) + Amount(x)
  {
    assert (s + [x])[..|s|] == s;
  }

  // ---------------------------------------------------------------------
  // KPIs

  datatype Kpis = Kpis(ingresos: real, gastos: real, ahorro: real, inversion: real, corriente: real)

  /** The total of one category's amounts: the amounts of the rows whose
      category is `tipo`, counted in place. */
  function TotalOf(rows: seq<LoadedRow>, tipo: string): (t: real)
    ensures t == SumWhere(rows, [Tipo], [tipo])
  {
    WhereTotalIsKeySum(rows, tipo);
    TotalAmount(Where(rows, Tipo, tipo))
  }

  /** Summing the selected rows is summing the rows with that key. */
  lemma {:induction false} WhereTotalIsKeySum(rows: seq<LoadedRow>, tipo: string)
    ensures TotalAmount(Where(rows, Tipo, tipo)) == SumWhere(rows, [Tipo], [tipo])
    decreases |rows|
  {
    if |rows| > 0 {
      var n := |rows| - 1;
      var x := rows[n];
      WhereTotalIsKeySum(rows[..n], tipo);
      assert KeyOf(x, [Tipo]) == [x.tipo];
      if x.tipo == tipo {
        TotalAmountSnoc(Where(rows[..n], Tipo, tipo), x);
      }
    }
  }

  /** The current account left after expenses, savings and investments
      leave the income: the signed total minus the savings a second time,
      because savings are signed as an inflow. */
  lemma {:induction false} CurrentAccountIsSignedTotal(rows: seq<LoadedRow>)
    ensures TotalOf(rows, Ingreso) - TotalOf(rows, Gasto) - TotalOf(rows, Ahorro) - TotalOf(rows, Inversion)
         == SignedTotal(rows) - 2.0 * TotalOf(rows, Ahorro)
    decreases |rows|
  {
    if |rows| > 0 {
      var n := |rows| - 1;
      var s, x := rows[..n], rows[n];
      CurrentAccountIsSignedTotal(s);
      SignLaw(x);
      TotalAmountSnoc(Where(s, Tipo, x.tipo), x);
    }
  }

  /** The five figures at the top of the page, from the filtered rows. */
  function ComputeKpis(rows: seq<LoadedRow>): (k: Kpis)
    ensures k.ingresos == TotalOf(rows, Ingreso) && k.gastos == TotalOf(rows, Gasto)
    ensures k.ahorro == TotalOf(rows, Ahorro) && k.inversion == TotalOf(rows, Inversion)
    ensures k.corriente == SignedTotal(rows) - 2.0 * k.ahorro
  {
    CurrentAccountIsSignedTotal(rows);
    var ing, gas := TotalOf(rows, Ingreso), TotalOf(rows, Gasto);
    var aho, inv := TotalOf(rows, Ahorro), TotalOf(rows, Inversion);
    Kpis(ing, gas, aho, inv, ing - gas - aho - inv)
  }

  // ---------------------------------------------------------------------
  // Group-by sums

  /** One row of `groupby(cols)[...].sum().reset_index()`. */
  datatype Group = Group(key: seq<string>, total: real)

  /** Group keys ascend strictly, as pandas sorts them. */
  predicate SortedKeys(gs: seq<Group>)
  {
    forall i, j :: 0 <= i < j < |gs| ==> KeyLess(gs[i].key, gs[j].key)
  }

  function KeySet(gs: seq<Group>): set<seq<string>>
  {
    set g | g in gs :: g.key
  }

  /** The key values present among the rows. */
  function RowKeys(rows: seq<LoadedRow>, cols: seq<Column>): set<seq<string>>
  {
    set r | r in rows :: KeyOf(r, cols)
  }

  /** The total of the group with key `k`, or zero when there is none. */
  function TotalFor(gs: seq<Group>, k: seq<string>): real
  {
    if |gs| == 0 then 0.0 else if gs[0].key == k then gs[0].total else TotalFor(gs[1..], k)
  }

  /** The sum of all group totals. */
  function GroupsSum(gs: seq<Group>): real
  {
    if |gs| == 0 then 0.0 else gs[0].total + GroupsSum(gs[1..])
  }

  lemma {:induction false} AbsentKeyTotalsZero(gs: seq<Group>, k: seq<string>)
    requires k !in KeySet(gs)
    ensures TotalFor(gs, k) == 0.0
    decreases |gs|
  {
    if |gs| > 0 {
      assert gs[0] in gs;
      assert KeySet(gs[1..]) <= KeySet(gs);
      AbsentKeyTotalsZero(gs[1..], k);
    }
  }

  /** Every key after the first group's is greater than it. */
  lemma TailKeysAbove(gs: seq<Group>)
    requires SortedKeys(gs) && |gs| > 0
    ensures forall key :: key in KeySet(gs[1..]) ==> KeyLess(gs[0].key, key)
  {
    forall key | key in KeySet(gs[1..])
      ensures KeyLess(gs[0].key, key)
    {
      var g :| g in gs[1..] && g.key == key;
      var j :| 0 <= j < |gs[1..]| && gs[1..][j] == g;
      assert gs[j + 1] == g;
    }
  }

  /** A key below the first group's is below every group's key. */
  lemma BelowAll(gs: seq<Group>, k: seq<string>)
    requires SortedKeys(gs) && |gs| > 0 && KeyLess(k, gs[0].key)
    ensures forall key :: key in KeySet(gs) ==> KeyLess(k, key)
  {
    forall key | key in KeySet(gs)
      ensures KeyLess(k, key)
    {
      var j :| 0 <= j < |gs| && gs[j].key == key;
      if j > 0 {
        KeyLessTransitive(k, gs[0].key, key);
      }
    }
  }

  lemma KeySetCons(g: Group, gs: seq<Group>)
    ensures KeySet([g] + gs) == {g.key} + KeySet(gs)
  {
    assert forall h :: h in [g] + gs <==> h == g || h in gs;
  }

  /** `r` is the sorted table `gs` with `x` added under key `k`. */
  ghost predicate AddsTo(gs: seq<Group>, k: seq<string>, x: real, r: seq<Group>)
  {
    && SortedKeys(r)
    && KeySet(r) == KeySet(gs) + {k}
    && (forall k' :: TotalFor(r, k') == TotalFor(gs, k') + (if k' == k then x else 0.0))
    && GroupsSum(r) == GroupsSum(gs) + x
  }

  lemma AddToExisting(gs: seq<Group>, k: seq<string>, x: real)
    requires SortedKeys(gs) && |gs| > 0 && gs[0].key == k
    ensures AddsTo(gs, k, x, [Group(k, gs[0].total + x)] + gs[1..])
  {
    var r := [Group(k, gs[0].total + x)] + gs[1..];
    forall i, j | 0 <= i < j < |r|
      ensures KeyLess(r[i].key, r[j].key)
    {
      assert r[i].key == gs[i].key && r[j].key == gs[j].key;
    }
    assert r[1..] == gs[1..];
    assert gs == [gs[0]] + gs[1..];
    KeySetCons(gs[0], gs[1..]);
    KeySetCons(r[0], gs[1..]);
  }

  lemma AddToFront(gs: seq<Group>, k: seq<string>, x: real)
    requires SortedKeys(gs) && |gs| > 0 && KeyLess(k, gs[0].key)
    ensures AddsTo(gs, k, x, [Group(k, x)] + gs)
  {
    var r := [Group(k, x)] + gs;
    assert r[1..] == gs;
    FrontSorted(gs, k, x);
    BelowAll(gs, k);
    KeyLessIrreflexive(k);
    assert k !in KeySet(gs);
    AbsentKeyTotalsZero(gs, k);
    KeySetCons(r[0], gs);
  }

  lemma FrontSorted(gs: seq<Group>, k: seq<string>, x: real)
    requires SortedKeys(gs) && |gs| > 0 && KeyLess(k, gs[0].key)
    ensures SortedKeys([Group(k, x)] + gs)
  {
    var r := [Group(k, x)] + gs;
    BelowAll(gs, k);
    forall i, j | 0 <= i < j < |r|
      ensures KeyLess(r[i].key, r[j].key)
    {
      assert r[j] == gs[j - 1];
      if i == 0 {
        assert gs[j - 1] in gs;
        assert gs[j - 1].key in KeySet(gs);
      } else {
        assert r[i] == gs[i - 1];
      }
    }
  }

  lemma AddToLater(gs: seq<Group>, k: seq<string>, x: real, rest: seq<Group>)
    requires SortedKeys(gs) && |gs| > 0 && KeyLess(gs[0].key, k)
    requires AddsTo(gs[1..], k, x, rest)
    ensures AddsTo(gs, k, x, [gs[0]] + rest)
  {
    KeyLessIrreflexive(k);
    LaterSorted(gs, k, rest);
    LaterTotals(gs, k, x, rest);
    LaterKeys(gs, k, rest);
    assert ([gs[0]] + rest)[1..] == rest;
  }

  lemma LaterKeys(gs: seq<Group>, k: seq<string>, rest: seq<Group>)
    requires |gs| > 0 && KeySet(rest) == KeySet(gs[1..]) + {k}
    ensures KeySet([gs[0]] + rest) == KeySet(gs) + {k}
  {
    assert gs == [gs[0]] + gs[1..];
    KeySetCons(gs[0], gs[1..]);
    KeySetCons(gs[0], rest);
  }

  lemma LaterTotals(gs: seq<Group>, k: seq<string>, x: real, rest: seq<Group>)
    requires |gs| > 0 && gs[0].key != k
    requires forall k' :: TotalFor(rest, k') == TotalFor(gs[1..], k') + (if k' == k then x else 0.0)
    ensures forall k' :: TotalFor([gs[0]] + rest, k') == TotalFor(gs, k') + (if k' == k then x else 0.0)
  {
    var r := [gs[0]] + rest;
    assert r[1..] == rest;
    forall k'
      ensures TotalFor(r, k') == TotalFor(gs, k') + (if k' == k then x else 0.0)
    {
      if k' == gs[0].key {
        assert TotalFor(r, k') == gs[0].total == TotalFor(gs, k');
      } else {
        assert TotalFor(r, k') == TotalFor(rest, k');
        assert TotalFor(gs, k') == TotalFor(gs[1..], k');
      }
    }
  }

  lemma LaterSorted(gs: seq<Group>, k: seq<string>, rest: seq<Group>)
    requires SortedKeys(gs) && |gs| > 0 && KeyLess(gs[0].key, k)
    requires SortedKeys(rest) && KeySet(rest) == KeySet(gs[1..]) + {k}
    ensures SortedKeys([gs[0]] + rest)
  {
    var r := [gs[0]] + rest;
    TailKeysAbove(gs);
    forall i, j | 0 <= i < j < |r|
      ensures KeyLess(r[i].key, r[j].key)
    {
      assert r[j] == rest[j - 1];
      if i == 0 {
        assert rest[j - 1] in rest;
        assert rest[j - 1].key in KeySet(rest);
      } else {
        assert r[i] == rest[i - 1];
      }
    }
  }

  /** Adding one amount under key `k` to a sorted group table: the keys stay
      sorted, `k` joins the keys, only `k`'s total grows, by `x`, and so
      does the grand total. */
  function AddTo(gs: seq<Group>, k: seq<string>, x: real): (r: seq<Group>)
    requires SortedKeys(gs)
    ensures SortedKeys(r)
    ensures KeySet(r) == KeySet(gs) + {k}
    ensures forall k' :: TotalFor(r, k') == TotalFor(gs, k') + (if k' == k then x else 0.0)
    ensures GroupsSum(r) == GroupsSum(gs) + x
    decreases |gs|
  {
    if |gs| == 0 then
      [Group(k, x)]
    else if gs[0].key == k then
      AddToExisting(gs, k, x);
      [Group(k, gs[0].total + x)] + gs[1..]
    else if KeyLess(k, gs[0].key) then
      AddToFront(gs, k, x);
      [Group(k, x)] + gs
    else
      KeyLessTotal(k, gs[0].key);
      var rest := AddTo(gs[1..], k, x);
      AddToLater(gs, k, x, rest);
      [gs[0]] + rest
  }

  lemma RowKeysSnoc(rows: seq<LoadedRow>, cols: seq<Column>)
    requires |rows| > 0
    ensures RowKeys(rows, cols) == RowKeys(rows[..|rows| - 1], cols) + {KeyOf(rows[|rows| - 1], cols)}
  {
    assert rows == rows[..|rows| - 1] + [rows[|rows| - 1]];
  }

  /** `groupby(cols)["Importe"].sum()`: one group per key value present,
      keys ascending, each group's total the sum of its rows' amounts, and
      the totals together adding up to the total amount. */
  function GroupSum(rows: seq<LoadedRow>, cols: seq<Column>): (r: seq<Group>)
    ensures SortedKeys(r)
    ensures KeySet(r) == RowKeys(rows, cols)
    ensures forall k :: TotalFor(r, k) == SumWhere(rows, cols, k)
    ensures GroupsSum(r) == TotalAmount(rows)
  {
    if |rows| == 0 then []
    else
      var n := |rows| - 1;
      RowKeysSnoc(rows, cols);
      AddTo(GroupSum(rows[..n], cols), KeyOf(rows[n], cols), Amount(rows[n]))
  }

  /** In a sorted table, the total looked up by a group's key is that group's. */
  lemma {:induction false} TotalForMember(gs: seq<Group>, i: nat)
    requires SortedKeys(gs) && i < |gs|
    ensures TotalFor(gs, gs[i].key) == gs[i].total
    decreases i
  {
    if i > 0 {
      KeyLessAsymmetric(gs[0].key, gs[i].key);
      assert gs[1..][i - 1] == gs[i];
      TotalForMember(gs[1..], i - 1);
    }
  }

  /** Every group of the table holds exactly the sum of the amounts of the
      rows with its key, and every key has the columns' arity. */
  lemma GroupTotalsAreRowSums(rows: seq<LoadedRow>, cols: seq<Column>)
    ensures forall i :: 0 <= i < |GroupSum(rows, cols)| ==>
      GroupSum(rows, cols)[i].total == SumWhere(rows, cols, GroupSum(rows, cols)[i].key)
    ensures forall i :: 0 <= i < |GroupSum(rows, cols)| ==> |GroupSum(rows, cols)[i].key| == |cols|
  {
    var gs := GroupSum(rows, cols);
    forall i | 0 <= i < |gs|
      ensures gs[i].total == SumWhere(rows, cols, gs[i].key) && |gs[i].key| == |cols|
    {
      TotalForMember(gs, i);
      assert gs[i].key in KeySet(gs);
    }
  }

  /** The monthly cash-flow table: sums by (period, category). */
  function MonthlyByCategory(rows: seq<LoadedRow>): (r: seq<Group>)
    ensures SortedKeys(r)
    ensures forall i :: 0 <= i < |r| ==> |r[i].key| == 2 && r[i].total == SumWhere(rows, [Mes, Tipo], r[i].key)
    ensures GroupsSum(r) == TotalAmount(rows)
  {
    GroupTotalsAreRowSums(rows, [Mes, Tipo]);
    GroupSum(rows, [Mes, Tipo])
  }

  /** Conservation: the (period, category) sums add up to the total amount
      of the filtered rows, and there is a group for exactly the pairs that
      occur. */
  lemma MonthlyByCategoryConserves(rows: seq<LoadedRow>)
    ensures GroupsSum(MonthlyByCategory(rows)) == TotalAmount(rows)
    ensures forall m, t :: ([m, t] in KeySet(MonthlyByCategory(rows))
      <==> exists i :: 0 <= i < |rows| && rows[i].mes == m && rows[i].tipo == t)
  {
    var cols := [Mes, Tipo];
    var gs := MonthlyByCategory(rows);
    assert KeySet(gs) == RowKeys(rows, cols);
    forall m, t
      ensures [m, t] in RowKeys(rows, cols) <==> exists i :: 0 <= i < |rows| && rows[i].mes == m && rows[i].tipo == t
    {
      PairKey(rows, m, t);
    }
  }

  lemma PairKey(rows: seq<LoadedRow>, m: string, t: string)
    ensures [m, t] in RowKeys(rows, [Mes, Tipo]) <==> exists i :: 0 <= i < |rows| && rows[i].mes == m && rows[i].tipo == t
  {
    var cols := [Mes, Tipo];
    if [m, t] in RowKeys(rows, cols) {
      var r :| r in rows && KeyOf(r, cols) == [m, t];
      var i :| 0 <= i < |rows| && rows[i] == r;
      assert KeyOf(r, cols)[0] == m && KeyOf(r, cols)[1] == t;
    }
    if exists i :: 0 <= i < |rows| && rows[i].mes == m && rows[i].tipo == t {
      var i :| 0 <= i < |rows| && rows[i].mes == m && rows[i].tipo == t;
      assert KeyOf(rows[i], cols) == [m, t];
      assert rows[i] in rows;
    }
  }
}

=== FILE: balance.dfy ===
/** The running balance of `plot_saldo` (main.py:236-238): sort the rows by
    date, missing dates last, and take the cumulative sum of `Signo`. */
module Balance {
  import opened Wrappers
  import opened Dates
  import opened Load
  import opened Aggregate

  /** Dates never decrease along the sequence (missing dates at the end). */
  predicate SortedByDate(s: seq<LoadedRow>)
  {
    forall i, j :: 0 <= i < j < |s| ==> SortsNoLater(s[i].fecha, s[j].fecha)
  }

  /** The rows on date `d` (or without a date, for None), in sequence order. */
  function OnDate(s: seq<LoadedRow>, d: Option<Date>): seq<LoadedRow>
  {
    if |s| == 0 then []
    else (if s[0].fecha == d then [s[0]] else []) + OnDate(s[1..], d)
  }

  lemma {:induction false} SignedTotalAppend(a: seq<LoadedRow>, b: seq<LoadedRow>)
    ensures SignedTotal(a + b) == SignedTotal(a) + SignedTotal(b)
    decreases |b|
  {
    if |b| == 0 {
      assert a + b == a;
    } else {
      var n := |b| - 1;
      assert (a + b)[..|a + b| - 1] == a + b[..n];
      assert (a + b)[|a + b| - 1] == b[n];
      SignedTotalAppend(a, b[..n]);
    }
  }

  lemma SignedTotalCons(x: LoadedRow, s: seq<LoadedRow>)
    ensures SignedTotal([x] + s) == Signo(x).GetOr(0.0) + SignedTotal(s)
  {
    SignedTotalAppend([x], s);
    assert [x][..0] == [];
  }

  /** Every element of a sorted sequence may follow its first element. */
  lemma FirstIsEarliest(s: seq<LoadedRow>, a: Option<Date>)
    requires SortedByDate(s) && (|s| > 0 ==> SortsNoLater(a, s[0].fecha))
    ensures forall j :: 0 <= j < |s| ==> SortsNoLater(a, s[j].fecha)
  {
    forall j | 0 <= j < |s|
      ensures SortsNoLater(a, s[j].fecha)
    {
      if j > 0 {
        SortsNoLaterTransitive(a, s[0].fecha, s[j].fecha);
      }
    }
  }

  /** Rows drawn from the tail of a sorted sequence, plus one row that comes
      strictly later than its head, may all follow the head. */
  lemma RestFollowsFirst(s: seq<LoadedRow>, x: LoadedRow, rest: seq<LoadedRow>)
    requires SortedByDate(s) && |s| > 0 && SortsNoLater(s[0].fecha, x.fecha)
    requires multiset(rest) == multiset(s[1..]) + multiset{x}
    ensures forall j :: 0 <= j < |rest| ==> SortsNoLater(s[0].fecha, rest[j].fecha)
  {
    forall j | 0 <= j < |rest|
      ensures SortsNoLater(s[0].fecha, rest[j].fecha)
    {
      assert rest[j] in multiset(rest);
      if rest[j] != x {
        assert rest[j] in multiset(s[1..]);
        var k :| 0 <= k < |s[1..]| && s[1..][k] == rest[j];
        assert s[k + 1] == rest[j];
      }
    }
  }

  /** `r` is the sorted sequence `s` with `x` inserted stably. */
  ghost predicate InsertedInto(x: LoadedRow, s: seq<LoadedRow>, r: seq<LoadedRow>)
  {
    && SortedByDate(r)
    && multiset(r) == multiset(s) + multiset{x}
    && (forall d :: OnDate(r, d) == (if x.fecha == d then [x] else []) + OnDate(s, d))
    && SignedTotal(r) == Signo(x).GetOr(0.0) + SignedTotal(s)
  }

  lemma InsertFirst(x: LoadedRow, s: seq<LoadedRow>)
    requires SortedByDate(s) && (|s| == 0 || SortsNoLater(x.fecha, s[0].fecha))
    ensures InsertedInto(x, s, [x] + s)
  {
    var r := [x] + s;
    assert r[1..] == s;
    FirstIsEarliest(s, x.fecha);
    SignedTotalCons(x, s);
  }

  lemma InsertLater(x: LoadedRow, s: seq<LoadedRow>, rest: seq<LoadedRow>)
    requires SortedByDate(s) && |s| > 0 && !SortsNoLater(x.fecha, s[0].fecha)
    requires InsertedInto(x, s[1..], rest)
    ensures InsertedInto(x, s, [s[0]] + rest)
  {
    SortsNoLaterTotal(x.fecha, s[0].fecha);
    assert s == [s[0]] + s[1..];
    var r := [s[0]] + rest;
    assert r[1..] == rest;
    LaterSorted(s, x, rest);
    LaterOnDate(s, x, rest);
    SignedTotalCons(s[0], rest);
    SignedTotalCons(s[0], s[1..]);
  }

  lemma LaterOnDate(s: seq<LoadedRow>, x: LoadedRow, rest: seq<LoadedRow>)
    requires |s| > 0 && x.fecha != s[0].fecha
    requires forall d :: OnDate(rest, d) == (if x.fecha == d then [x] else []) + OnDate(s[1..], d)
    ensures forall d :: OnDate([s[0]] + rest, d) == (if x.fecha == d then [x] else []) + OnDate(s, d)
  {
    var r := [s[0]] + rest;
    assert r[1..] == rest;
    forall d
      ensures OnDate(r, d) == (if x.fecha == d then [x] else []) + OnDate(s, d)
    {
      if s[0].fecha == d {
        assert OnDate(r, d) == [s[0]] + OnDate(rest, d);
        assert OnDate(rest, d) == OnDate(s[1..], d);
      } else {
        assert OnDate(r, d) == OnDate(rest, d);
        assert OnDate(s, d) == OnDate(s[1..], d);
      }
    }
  }

  lemma LaterSorted(s: seq<LoadedRow>, x: LoadedRow, rest: seq<LoadedRow>)
    requires SortedByDate(s) && |s| > 0 && SortsNoLater(s[0].fecha, x.fecha)
    requires SortedByDate(rest) && multiset(rest) == multiset(s[1..]) + multiset{x}
    ensures SortedByDate([s[0]] + rest)
  {
    var r := [s[0]] + rest;
    RestFollowsFirst(s, x, rest);
    forall i, j | 0 <= i < j < |r|
      ensures SortsNoLater(r[i].fecha, r[j].fecha)
    {
      assert r[j] == rest[j - 1];
      if i > 0 {
        assert r[i] == rest[i - 1];
      }
    }
  }

  /** Inserting one row into a date-sorted sequence, before every row that
      does not come strictly earlier: the result stays sorted, holds the
      same rows plus `x`, and `x` precedes the rows that share its date. */
  function Insert(x: LoadedRow, s: seq<LoadedRow>): (r: seq<LoadedRow>)
    requires SortedByDate(s)
    ensures SortedByDate(r)
    ensures multiset(r) == multiset(s) + multiset{x}
    ensures forall d :: OnDate(r, d) == (if x.fecha == d then [x] else []) + OnDate(s, d)
    ensures SignedTotal(r) == Signo(x).GetOr(0.0) + SignedTotal(s)
  {
    if |s| == 0 || SortsNoLater(x.fecha, s[0].fecha) then
      InsertFirst(x, s);
      [x] + s
    else
      var rest := Insert(x, s[1..]);
      InsertLater(x, s, rest);
      [s[0]] + rest
  }

  lemma SortStep(rows: seq<LoadedRow>, sortedTail: seq<LoadedRow>, r: seq<LoadedRow>)
    requires |rows| > 0
    requires multiset(sortedTail) == multiset(rows[1..])
    requires forall d :: OnDate(sortedTail, d) == OnDate(rows[1..], d)
    requires SignedTotal(sortedTail) == SignedTotal(rows[1..])
    requires InsertedInto(rows[0], sortedTail, r)
    ensures multiset(r) == multiset(rows)
    ensures forall d :: OnDate(r, d) == OnDate(rows, d)
    ensures SignedTotal(r) == SignedTotal(rows)
  {
    assert rows == [rows[0]] + rows[1..];
    SignedTotalCons(rows[0], rows[1..]);
  }

  /** `sort_values("Fecha")`, taken stable: sorted by date with missing dates
      last, a permutation of the input, and rows sharing a date (or lacking
      one) keep their input order. */
  function SortByDate(rows: seq<LoadedRow>): (r: seq<LoadedRow>)
    ensures SortedByDate(r)
    ensures multiset(r) == multiset(rows)
    ensures forall d :: OnDate(r, d) == OnDate(rows, d)
    ensures SignedTotal(r) == SignedTotal(rows)
  {
    if |rows| == 0 then []
    else
      var tail := SortByDate(rows[1..]);
      var r := Insert(rows[0], tail);
      SortStep(rows, tail, r);
      r
  }

  /** `saldo["Signo"].cumsum()`: entry `i` is the sum of the signed amounts
      of rows `0..i`, skipping rows without a sign, and is missing where the
      row itself has no sign. */
  method CumulativeSum(rows: seq<LoadedRow>) returns (saldo: seq<Option<real>>)
    ensures |saldo| == |rows|
    ensures forall i :: 0 <= i < |rows| ==>
      saldo[i] == (if Signo(rows[i]).Some? then Some(SignedTotal(rows[..i + 1])) else None)
  {
    saldo := [];
    var acc := 0.0;
    var i := 0;
    while i < |rows|
      invariant 0 <= i <= |rows|
      invariant |saldo| == i
      invariant acc == SignedTotal(rows[..i])
      invariant forall j :: 0 <= j < i ==>
        saldo[j] == (if Signo(rows[j]).Some? then Some(SignedTotal(rows[..j + 1])) else None)
    {
      assert rows[..i + 1][..i] == rows[..i];
      acc := acc + Signo(rows[i]).GetOr(0.0);
      saldo := saldo + [if Signo(rows[i]).Some? then Some(acc) else None];
      i := i + 1;
    }
  }

  /** The balance chart: the rows in date order and the running balance
      beside them. The series is as long as the input, and its last value,
      when present, is the signed total of all the rows. */
  method BalanceSeries(rows: seq<LoadedRow>) returns (sorted: seq<LoadedRow>, saldo: seq<Option<real>>)
    ensures SortedByDate(sorted) && multiset(sorted) == multiset(rows)
    ensures |saldo| == |rows| && |sorted| == |rows|
    ensures forall i :: 0 <= i < |rows| ==>
      saldo[i] == (if Signo(sorted[i]).Some? then Some(SignedTotal(sorted[..i + 1])) else None)
    ensures |rows| > 0 && saldo[|rows| - 1].Some? ==> saldo[|rows| - 1].value == SignedTotal(rows)
  {
    sorted := SortByDate(rows);
    assert |sorted| == |multiset(sorted)| == |multiset(rows)| == |rows|;
    saldo := CumulativeSum(sorted);
    if |rows| > 0 {
      assert sorted[..|rows|] == sorted;
    }
  }
}

=== FILE: cache.dfy ===
/** The cache synchronisation of `actualizar_csv` (main.py:154-194): fetch
    every record, flatten them, and rewrite the cached table only when it is
    missing or differs from the new one. The cache file is modelled as an
    in-memory table, `None` when no file exists. */
module Cache {
  import opened Wrappers
  import opened Json
  import opened Fetch
  import opened Normalize

  datatype SyncStatus = Updated | Unchanged

  /** The status reported and the cache left behind. */
  datatype SyncResult = SyncResult(status: SyncStatus, cache: Option<seq<Row>>)

  /** The credentials read at start-up (`NOTION_TOKEN`, `DATABASE_ID`). */
  datatype Config = Config(token: Option<string>, databaseId: Option<string>)

  /** `NOTION_TOKEN` and `DATABASE_ID` are both present and non-empty. */
  predicate HasCredentials(config: Config)
  {
    && config.token.Some? && config.token.value != ""
    && config.databaseId.Some? && config.databaseId.value != ""
  }

  datatype RefreshError =
    | MissingCredentials            // the page stops before any request
    | BadRecord(e: NormalizeError)  // flattening a record raised

  /** Whole-table comparison: write when no cache exists or the cached table
      is not equal, row for row and column for column, to the new one.
      Afterwards the cache holds exactly the new rows, and "unchanged" is
      reported exactly when that needed no write. */
  function Sync(cache: Option<seq<Row>>, rows: seq<Row>): (r: SyncResult)
    ensures r.cache == Some(rows)
    ensures r.status == Unchanged <==> r.cache == cache
  {
    if cache.None? || cache.value != rows then SyncResult(Updated, Some(rows))
    else SyncResult(Unchanged, cache)
  }

  /** Synchronising the same rows twice: the second call reports "unchanged"
      and leaves the cache as the first call left it. */
  lemma SyncIdempotent(cache: Option<seq<Row>>, rows: seq<Row>)
    ensures var first := Sync(cache, rows);
      Sync(first.cache, rows) == SyncResult(Unchanged, first.cache)
  {
  }

  /** A write happens exactly when no cache exists or it holds other rows;
      in particular the very first synchronisation always writes. */
  lemma SyncWritesIffDifferent(cache: Option<seq<Row>>, rows: seq<Row>)
    ensures Sync(cache, rows).status == Updated <==> (cache.None? || cache.value != rows)
    ensures Sync(None, rows).status == Updated
  {
  }

  /** What a run makes of the fetched records: the first bad record aborts
      it and leaves the cache alone; otherwise the cache ends up holding
      exactly the flattened records, row for row, and "unchanged" is
      reported exactly when it already held them. */
  function Outcome(records: seq<Value>, cache: Option<seq<Row>>): (r: Result<SyncResult, RefreshError>)
    ensures r.Failure? <==> exists i :: 0 <= i < |records| && NormalizeRecord(records[i]).Failure?
    ensures r.Failure? ==> r.error.BadRecord? && exists i :: FirstFailureAt(records, i, r.error.e)
    ensures r.Success? ==>
      && r.value.cache.Some?
      && |r.value.cache.value| == |records|
      && (forall i :: 0 <= i < |records| ==> r.value.cache.value[i] == NormalizeRecord(records[i]).value)
      && (r.value.status == Unchanged <==> cache == r.value.cache)
  {
    var normalized := NormalizeAll(records);
    if normalized.Failure? then Failure(BadRecord(normalized.error))
    else Success(Sync(cache, normalized.value))
  }

  /** `actualizar_csv`: stop without a request when a credential is missing;
      otherwise fetch every page, the last request being the first page
      that reports no more pages, and settle the cache from the records
      fetched. `requests` is the number of queries sent. */
  method Refresh(config: Config, pages: seq<Page>, cache: Option<seq<Row>>)
    returns (out: Result<SyncResult, RefreshError>, requests: nat)
    requires HasCredentials(config) ==> Exhausts(pages)
    ensures !HasCredentials(config) ==> out == Failure(MissingCredentials) && requests == 0
    ensures HasCredentials(config) ==>
      && 1 <= requests <= |pages|
      && !pages[requests - 1].hasMore
      && (forall i :: 0 <= i < requests - 1 ==> pages[i].hasMore)
      && out == Outcome(Flatten(pages[..requests]), cache)
  {
    if !HasCredentials(config) {
      return Failure(MissingCredentials), 0;
    }
    var records, cursors := FetchAll(pages);
    requests := |cursors|;
    assert 1 <= requests <= |pages| && !pages[requests - 1].hasMore;
    assert forall i :: 0 <= i < requests - 1 ==> pages[i].hasMore;
    assert records == Flatten(pages[..requests]);
    out := Outcome(records, cache);
  }
}

=== FILE: dates.dfy ===
/** Calendar dates as read from ISO 8601 strings, the `YYYY-MM` period label
    that pandas' `to_period("M")` prints, and the chronological order that
    `sort_values("Fecha")` uses (missing dates last). */
module Dates {
  import opened Wrappers
  import opened LexOrder

  datatype Date = Date(year: int, month: int, day: int)

  predicate IsDigit(c: char)
  {
    '0' <= c <= '9'
  }

  function DigitValue(c: char): int
    requires IsDigit(c)
  {
    c as int - '0' as int
  }

  function DigitChar(d: int): char
    requires 0 <= d <= 9
  {
    (d + '0' as int) as char
  }

  predicate IsLeapYear(y: int)
  {
    (y % 4 == 0 && y % 100 != 0) || y % 400 == 0
  }

  function DaysInMonth(y: int, m: int): int
    requires 1 <= m <= 12
  {
    if m == 2 then (if IsLeapYear(y) then 29 else 28)
    else if m == 4 || m == 6 || m == 9 || m == 11 then 30
    else 31
  }

  /** A real calendar day with a four-digit year. */
  predicate ValidDate(d: Date)
  {
    && 0 <= d.year <= 9999
    && 1 <= d.month <= 12
    && 1 <= d.day <= DaysInMonth(d.year, d.month)
  }

  /** `YYYY-MM-DD` at the front of the string, followed either by nothing or
      by a time part introduced by `T`. */
  predicate IsoShape(s: string)
  {
    && |s| >= 10
    && IsDigit(s[0]) && IsDigit(s[1]) && IsDigit(s[2]) && IsDigit(s[3])
    && s[4] == '-'
    && IsDigit(s[5]) && IsDigit(s[6])
    && s[7] == '-'
    && IsDigit(s[8]) && IsDigit(s[9])
    && (|s| == 10 || s[10] == 'T')
  }

  function Number2(a: char, b: char): int
    requires IsDigit(a) && IsDigit(b)
  {
    10 * DigitValue(a) + DigitValue(b)
  }

  /** The calendar date at the front of an ISO 8601 string, or None when the
      string is not one (pandas' `NaT` under `errors="coerce"`). */
  function ParseIsoDate(s: string): (r: Option<Date>)
    ensures r.Some? ==> ValidDate(r.value) && IsoShape(s)
    ensures r.Some? ==> r.value.month == Number2(s[5], s[6]) && r.value.day == Number2(s[8], s[9])
    ensures r.Some? ==>
      r.value.year == 1000 * DigitValue(s[0]) + 100 * DigitValue(s[1]) + 10 * DigitValue(s[2]) + DigitValue(s[3])
    ensures IsoShape(s) &&
      ValidDate(Date(1000 * DigitValue(s[0]) + 100 * DigitValue(s[1]) + 10 * DigitValue(s[2]) + DigitValue(s[3]),
                     Number2(s[5], s[6]), Number2(s[8], s[9])))
      ==> r.Some?
  {
    if !IsoShape(s) then None
    else
      var d := Date(100 * Number2(s[0], s[1]) + Number2(s[2], s[3]), Number2(s[5], s[6]), Number2(s[8], s[9]));
      if ValidDate(d) then Some(d) else None
  }

  /** `strftime("%Y-%m")` of a month period. */
  function PeriodLabel(d: Date): string
    requires ValidDate(d)
  {
    [ DigitChar(d.year / 1000), DigitChar(d.year / 100 % 10), DigitChar(d.year / 10 % 10), DigitChar(d.year % 10),
      '-',
      DigitChar(d.month / 10), DigitChar(d.month % 10) ]
  }

  /** `isoformat()` of a day: `YYYY-MM-DD`. */
  function IsoText(d: Date): string
    requires ValidDate(d)
  {
    PeriodLabel(d) + ['-', DigitChar(d.day / 10), DigitChar(d.day % 10)]
  }

  /** Every real calendar day parses back from its ISO text, with or without
      a time part after `T`. */
  lemma IsoDateRoundTrip(d: Date, time: string)
    requires ValidDate(d)
    ensures ParseIsoDate(IsoText(d)) == Some(d)
    ensures ParseIsoDate(IsoText(d) + ['T'] + time) == Some(d)
  {
    var s := IsoText(d);
    var t := s + ['T'] + time;
    assert s[..10] == s;
    assert t[..10] == s && t[10] == 'T';
    IsoPrefixParses(d, s);
    IsoPrefixParses(d, t);
  }

  /** A string that starts with the ISO text of a day, followed by nothing
      or by a time part, parses to that day. */
  lemma IsoPrefixParses(d: Date, s: string)
    requires ValidDate(d) && |s| >= 10 && s[..10] == IsoText(d)
    requires |s| == 10 || s[10] == 'T'
    ensures ParseIsoDate(s) == Some(d)
  {
    var y := d.year;
    var iso := IsoText(d);
    assert forall i :: 0 <= i < 10 ==> s[i] == iso[i];
    YearDigits(y);
    assert s[0] == DigitChar(y / 1000) && s[1] == DigitChar(y / 100 % 10);
    assert s[2] == DigitChar(y / 10 % 10) && s[3] == DigitChar(y % 10);
    assert Number2(s[5], s[6]) == d.month;
    assert Number2(s[8], s[9]) == d.day;
  }

  /** A four-digit year is the number its digits spell. */
  lemma YearDigits(y: int)
    requires 0 <= y <= 9999
    ensures 1000 * (y / 1000) + 100 * (y / 100 % 10) + 10 * (y / 10 % 10) + y % 10 == y
  {
    assert y / 100 == 10 * (y / 1000) + y / 100 % 10;
    assert y / 10 == 10 * (y / 100) + y / 10 % 10;
    assert y == 10 * (y / 10) + y % 10;
  }

  lemma DigitRoundTrip(c: char)
    requires IsDigit(c)
    ensures DigitChar(DigitValue(c)) == c
  {
  }

  /** The digits of a four-digit number. */
  lemma FourDigits(a: int, b: int, c: int, e: int)
    requires 0 <= a <= 9 && 0 <= b <= 9 && 0 <= c <= 9 && 0 <= e <= 9
    ensures var y := 1000 * a + 100 * b + 10 * c + e;
      y / 1000 == a && y / 100 % 10 == b && y / 10 % 10 == c && y % 10 == e
  {
    var y := 1000 * a + 100 * b + 10 * c + e;
    assert y / 1000 == a;
    assert y / 100 == 10 * a + b;
    assert y / 10 == 100 * a + 10 * b + c;
  }

  /** The period label of a parsed date is exactly the first seven characters
      (`YYYY-MM`) of the string it was parsed from. */
  lemma PeriodLabelIsPrefix(s: string)
    requires ParseIsoDate(s).Some?
    ensures PeriodLabel(ParseIsoDate(s).value) == s[..7]
  {
    var d := ParseIsoDate(s).value;
    var a, b, c, e := DigitValue(s[0]), DigitValue(s[1]), DigitValue(s[2]), DigitValue(s[3]);
    assert d.year == 1000 * a + 100 * b + 10 * c + e;
    FourDigits(a, b, c, e);
    DigitRoundTrip(s[0]); DigitRoundTrip(s[1]); DigitRoundTrip(s[2]); DigitRoundTrip(s[3]);
    DigitRoundTrip(s[5]); DigitRoundTrip(s[6]);
  }

  /** Chronological order on days. */
  predicate DateBefore(a: Date, b: Date)
  {
    a.year < b.year
    || (a.year == b.year && a.month < b.month)
    || (a.year == b.year && a.month == b.month && a.day < b.day)
  }

  /** The order of pandas' `sort_values` on a date column: chronological,
      with missing dates (`NaT`) placed after every real date. Read as "`a`
      may come before `b`". */
  predicate SortsNoLater(a: Option<Date>, b: Option<Date>)
  {
    b.None? || (a.Some? && !DateBefore(b.value, a.value))
  }

  lemma SortsNoLaterTotal(a: Option<Date>, b: Option<Date>)
    ensures SortsNoLater(a, b) || SortsNoLater(b, a)
  {
  }

  lemma SortsNoLaterTransitive(a: Option<Date>, b: Option<Date>, c: Option<Date>)
    requires SortsNoLater(a, b) && SortsNoLater(b, c)
    ensures SortsNoLater(a, c)
  {
  }

  // ---------------------------------------------------------------------
  // Period labels sort chronologically

  /** The calendar month of `a` is earlier than that of `b`. */
  predicate MonthBefore(a: Date, b: Date)
  {
    a.year < b.year || (a.year == b.year && a.month < b.month)
  }

  predicate AllDigits(s: string)
  {
    forall i :: 0 <= i < |s| ==> IsDigit(s[i])
  }

  function Pow10(n: nat): nat
  {
    if n == 0 then 1 else 10 * Pow10(n - 1)
  }

  /** The number a string of decimal digits spells, most significant first. */
  function DigitsValue(s: string): nat
    requires AllDigits(s)
    decreases |s|
  {
    if |s| == 0 then 0 else DigitValue(s[0]) * Pow10(|s| - 1) + DigitsValue(s[1..])
  }

  lemma {:induction false} DigitsValueBound(s: string)
    requires AllDigits(s)
    ensures DigitsValue(s) < Pow10(|s|)
    decreases |s|
  {
    if |s| > 0 {
      DigitsValueBound(s[1..]);
      LeadingDigitDecides(DigitValue(s[0]), 10, DigitsValue(s[1..]), 0, Pow10(|s| - 1));
    }
  }

  /** Between digit strings of one length, string order is numeric order. */
  lemma {:induction false} DigitsOrder(a: string, b: string)
    requires |a| == |b| && AllDigits(a) && AllDigits(b)
    ensures StrLess(a, b) <==> DigitsValue(a) < DigitsValue(b)
    decreases |a|
  {
    if |a| > 0 {
      var p := Pow10(|a| - 1);
      var x, y := DigitValue(a[0]), DigitValue(b[0]);
      var ta, tb := DigitsValue(a[1..]), DigitsValue(b[1..]);
      assert DigitsValue(a) == x * p + ta;
      assert DigitsValue(b) == y * p + tb;
      DigitsValueBound(a[1..]);
      DigitsValueBound(b[1..]);
      if a[0] == b[0] {
        DigitsOrder(a[1..], b[1..]);
      } else if x < y {
        LeadingDigitDecides(x, y, ta, tb, p);
      } else {
        LeadingDigitDecides(y, x, tb, ta, p);
      }
    }
  }

  /** A smaller leading digit makes a smaller number, whatever follows. */
  lemma LeadingDigitDecides(x: int, y: int, ta: int, tb: int, p: int)
    requires x < y && 0 <= ta < p && 0 <= tb
    ensures x * p + ta < y * p + tb
  {
    var k := y - x - 1;
    assert k >= 0 && p >= 0;
    assert k * p >= 0;
    assert y * p == x * p + p + k * p;
  }

  /** The four year digits and the two month digits of a period label. */
  function YearText(y: int): string
    requires 0 <= y <= 9999
  {
    [DigitChar(y / 1000), DigitChar(y / 100 % 10), DigitChar(y / 10 % 10), DigitChar(y % 10)]
  }

  function MonthText(m: int): string
    requires 0 <= m <= 99
  {
    [DigitChar(m / 10), DigitChar(m % 10)]
  }

  lemma YearTextValue(y: int)
    requires 0 <= y <= 9999
    ensures AllDigits(YearText(y)) && DigitsValue(YearText(y)) == y
  {
    var s := YearText(y);
    assert Pow10(1) == 10 && Pow10(2) == 100 && Pow10(3) == 1000;
    assert s[1..] == [s[1], s[2], s[3]] && s[1..][1..] == [s[2], s[3]];
    assert s[1..][1..][1..] == [s[3]] && s[1..][1..][1..][1..] == [];
    assert DigitsValue(s[1..][1..][1..]) == y % 10;
    assert DigitsValue(s[1..][1..]) == 10 * (y / 10 % 10) + y % 10;
    assert DigitsValue(s[1..]) == 100 * (y / 100 % 10) + 10 * (y / 10 % 10) + y % 10;
    YearDigits(y);
  }

  lemma MonthTextValue(m: int)
    requires 0 <= m <= 99
    ensures AllDigits(MonthText(m)) && DigitsValue(MonthText(m)) == m
  {
    var s := MonthText(m);
    assert Pow10(1) == 10;
    assert s[1..] == [s[1]] && s[1..][1..] == [];
    assert DigitsValue(s[1..]) == m % 10;
  }

  /** Python's string order on `YYYY-MM` labels is the calendar order of
      the months they name. */
  lemma PeriodLabelOrder(d1: Date, d2: Date)
    requires ValidDate(d1) && ValidDate(d2)
    ensures StrLess(PeriodLabel(d1), PeriodLabel(d2)) <==> MonthBefore(d1, d2)
  {
    var y1, y2 := YearText(d1.year), YearText(d2.year);
    var m1, m2 := MonthText(d1.month), MonthText(d2.month);
    assert PeriodLabel(d1) == y1 + (['-'] + m1);
    assert PeriodLabel(d2) == y2 + (['-'] + m2);
    StrLessAppend(y1, ['-'] + m1, y2, ['-'] + m2);
    assert StrLess(['-'] + m1, ['-'] + m2) == StrLess(m1, m2) by {
      assert (['-'] + m1)[1..] == m1 && (['-'] + m2)[1..] == m2;
    }
    YearTextValue(d1.year); YearTextValue(d2.year);
    MonthTextValue(d1.month); MonthTextValue(d2.month);
    DigitsOrder(y1, y2);
    DigitsOrder(m1, m2);
  }
}

=== FILE: fetch.dfy ===
/** Cursor pagination over the remote database query (main.py:160-167).
    The remote service is modelled by the sequence of pages it answers with:
    request number `i` receives `pages[i]`. */
module Fetch {
  import opened Wrappers
  import opened Json

  /** One query response: its records, `has_more` and `next_cursor`. */
  datatype Page = Page(results: seq<Value>, hasMore: bool, nextCursor: Option<string>)

  /** The records of the given pages, in page order. */
  function Flatten(pages: seq<Page>): seq<Value>
  {
    if |pages| == 0 then [] else Flatten(pages[..|pages| - 1]) + pages[|pages| - 1].results
  }

  /** Some page reports that no more pages follow; the loop ends only then. */
  predicate Exhausts(pages: seq<Page>)
  {
    exists i :: 0 <= i < |pages| && !pages[i].hasMore
  }

  /** Fetches every record. `cursors[i]` is the `start_cursor` sent with
      request `i`: none for the first, the previous page's `next_cursor`
      after that. Exactly `|cursors|` requests are made, the last being the
      first page that reports no more pages, and the records are those pages'
      results concatenated in page order. */
  method FetchAll(pages: seq<Page>) returns (records: seq<Value>, cursors: seq<Option<string>>)
    requires Exhausts(pages)
    ensures 1 <= |cursors| <= |pages|
    ensures forall i :: 0 <= i < |cursors| - 1 ==> pages[i].hasMore
    ensures !pages[|cursors| - 1].hasMore
    ensures cursors[0] == None
    ensures forall i :: 0 < i < |cursors| ==> cursors[i] == pages[i - 1].nextCursor
    ensures records == Flatten(pages[..|cursors|])
  {
    records, cursors := [], [];
    var cursor: Option<string> := None;
    var i := 0;
    while true
      invariant 0 <= i < |pages|
      invariant forall j :: 0 <= j < i ==> pages[j].hasMore
      invariant |cursors| == i
      invariant cursor == (if i == 0 then None else pages[i - 1].nextCursor)
      invariant i > 0 ==> cursors[0] == None
      invariant forall j :: 0 < j < i ==> cursors[j] == pages[j - 1].nextCursor
      invariant records == Flatten(pages[..i])
      decreases |pages| - i
    {
      var page := pages[i];
      cursors := cursors + [cursor];
      assert pages[..i + 1][..i] == pages[..i];
      records := records + page.results;
      if !page.hasMore {
        return;
      }
      cursor := page.nextCursor;
      i := i + 1;
    }
  }

  /** Every fetched record comes from some page, and every record of every
      page is fetched: nothing is lost or invented. */
  lemma {:induction false} FlattenMembership(pages: seq<Page>, x: Value)
    ensures x in Flatten(pages) <==> exists i :: 0 <= i < |pages| && x in pages[i].results
    decreases |pages|
  {
    if |pages| > 0 {
      var n := |pages| - 1;
      FlattenMembership(pages[..n], x);
      if x in pages[n].results {
        assert x in Flatten(pages);
      }
      if exists i :: 0 <= i < |pages| && x in pages[i].results {
        var i :| 0 <= i < |pages| && x in pages[i].results;
        if i < n {
          assert pages[..n][i] == pages[i];
        }
      }
    }
  }
}

=== FILE: json.dfy ===
/** JSON-like values as returned by the remote document database, and the
    defensive key-path walk `safe_text` (main.py:146-151). */
module Json {
  import opened Wrappers

  /** A decoded JSON value. Numbers are exact reals. */
  datatype Value =
    | Null
    | Bool(b: bool)
    | Num(n: real)
    | Str(s: string)
    | List(items: seq<Value>)
    | Object(fields: map<string, Value>)

  /** The empty mapping `{}` that the walk falls back to. */
  const EmptyObject: Value := Object(map[])

  /** Python truthiness: `None`, `False`, `0`, `""`, `[]` and `{}` are falsy. */
  predicate Truthy(v: Value)
  {
    match v
    case Null => false
    case Bool(b) => b
    case Num(n) => n != 0.0
    case Str(s) => s != ""
    case List(xs) => |xs| > 0
    case Object(m) => |m| > 0
  }

  /** The text carried by a value; anything that is not a string reads as "". */
  function TextOf(v: Value): string
  {
    if v.Str? then v.s else ""
  }

  /** `safe_text(obj, path)`: at every key a list is first replaced by its
      first element (or `{}` when empty), then a mapping is indexed by the
      key with `{}` as default, and any other value becomes `{}`. A falsy
      final value becomes the empty string. The walk never fails. */
  function SafeText(obj: Value, path: seq<string>): (r: Value)
    ensures Truthy(r) || r == Str("")
    ensures Truthy(obj) && |path| == 0 ==> r == obj
    decreases |path|
  {
    if |path| == 0 then
      if Truthy(obj) then obj else Str("")
    else
      var cur := if obj.List? then (if |obj.items| > 0 then obj.items[0] else EmptyObject) else obj;
      var next := if cur.Object? && path[0] in cur.fields then cur.fields[path[0]] else EmptyObject;
      SafeText(next, path[1..])
  }

  /** One strict descent step: a mapping that holds the key, possibly as the
      first element of a list. Anything else is a failed step. */
  function Descend(v: Value, key: string): Option<Value>
  {
    match v
    case Object(m) => if key in m then Some(m[key]) else None
    case List(xs) =>
      if |xs| > 0 && xs[0].Object? && key in xs[0].fields then Some(xs[0].fields[key]) else None
    case _ => None
  }

  /** Reference walk: the value at `path`, or None when some step fails. */
  function Lookup(v: Value, path: seq<string>): Option<Value>
    decreases |path|
  {
    if |path| == 0 then Some(v)
    else
      match Descend(v, path[0])
      case None => None
      case Some(w) => Lookup(w, path[1..])
  }

  /** Once the walk has fallen back to `{}`, it ends in "". */
  lemma {:induction false} EmptyObjectYieldsEmpty(path: seq<string>)
    ensures SafeText(EmptyObject, path) == Str("")
    decreases |path|
  {
    if |path| > 0 {
      EmptyObjectYieldsEmpty(path[1..]);
    }
  }

  /** `safe_text` agrees with the strict walk: it returns the value found at
      the path when every step succeeds and that value is truthy, and "" in
      every other case (a missing key, an empty list, a scalar mid-path, or a
      falsy final value). */
  lemma {:induction false} SafeTextIsLookup(v: Value, path: seq<string>)
    ensures SafeText(v, path)
         == (var o := Lookup(v, path); if o.Some? && Truthy(o.value) then o.value else Str(""))
    decreases |path|
  {
    if |path| > 0 {
      match Descend(v, path[0])
      case None =>
        EmptyObjectYieldsEmpty(path[1..]);
      case Some(w) =>
        SafeTextIsLookup(w, path[1..]);
    }
  }

  /** Walking `p + q` is walking `p` and then `q` from where `p` ended. */
  lemma {:induction false} LookupAppend(v: Value, p: seq<string>, q: seq<string>)
    ensures Lookup(v, p + q) == (match Lookup(v, p) case None => None case Some(w) => Lookup(w, q))
    decreases |p|
  {
    if |p| > 0 {
      assert (p + q)[0] == p[0];
      assert (p + q)[1..] == p[1..] + q;
      match Descend(v, p[0])
      case None =>
      case Some(w) => LookupAppend(w, p[1..], q);
    } else {
      assert p + q == q;
    }
  }

  /** Missing means empty: if the walk reaches step `i` but the key `path[i]`
      cannot be found there, the whole result is "". */
  lemma MissingKeyYieldsEmpty(v: Value, path: seq<string>, i: nat)
    requires i < |path|
    requires Lookup(v, path[..i]).Some?
    requires Descend(Lookup(v, path[..i]).value, path[i]).None?
    ensures SafeText(v, path) == Str("")
  {
    assert path == path[..i] + path[i..];
    LookupAppend(v, path[..i], path[i..]);
    SafeTextIsLookup(v, path);
  }

  /** A scalar met before the path is exhausted collapses the walk to "". */
  lemma ScalarMidPathYieldsEmpty(v: Value, path: seq<string>)
    requires |path| > 0
    requires !v.List? && !v.Object?
    ensures SafeText(v, path) == Str("")
  {
    EmptyObjectYieldsEmpty(path[1..]);
  }

  /** An empty list behaves as `{}`; a non-empty list as its first element
      (when that element is not itself a list, which is not unwrapped again). */
  lemma ListStandsForFirstElement(xs: seq<Value>, path: seq<string>)
    requires |path| > 0
    ensures |xs| == 0 ==> SafeText(List(xs), path) == Str("")
    ensures |xs| > 0 && !xs[0].List? ==> SafeText(List(xs), path) == SafeText(xs[0], path)
  {
    EmptyObjectYieldsEmpty(path[1..]);
  }

  /** Reading a property of a mapping and walking from there is the same as
      walking from the mapping with the property name prepended. */
  lemma PropertyThenPath(m: map<string, Value>, name: string, path: seq<string>)
    ensures SafeText(Object(m), [name] + path)
         == SafeText(if name in m then m[name] else EmptyObject, path)
  {
    assert ([name] + path)[1..] == path;
  }
}

=== FILE: lex_order.dfy ===
/** Python's ordering of `str` values (code-point lexicographic), which
    pandas uses for `max()` over a text column and for sorting group keys,
    lifted to tuples of strings (multi-column group keys). */
module LexOrder {

  /** `a < b` on Python strings. */
  predicate StrLess(a: string, b: string)
  {
    if |a| == 0 then |b| > 0
    else if |b| == 0 then false
    else if a[0] != b[0] then a[0] < b[0]
    else StrLess(a[1..], b[1..])
  }

  predicate StrLessEq(a: string, b: string)
  {
    a == b || StrLess(a, b)
  }

  lemma {:induction false} StrLessIrreflexive(a: string)
    ensures !StrLess(a, a)
    decreases |a|
  {
    if |a| > 0 {
      StrLessIrreflexive(a[1..]);
    }
  }

  lemma {:induction false} StrLessTransitive(a: string, b: string, c: string)
    requires StrLess(a, b) && StrLess(b, c)
    ensures StrLess(a, c)
    decreases |a|
  {
    if |a| > 0 && a[0] == b[0] && b[0] == c[0] {
      StrLessTransitive(a[1..], b[1..], c[1..]);
    }
  }

  /** Any two different strings are ordered one way or the other. */
  lemma {:induction false} StrLessTotal(a: string, b: string)
    ensures a == b || StrLess(a, b) || StrLess(b, a)
    decreases |a|
  {
    if |a| > 0 && |b| > 0 && a[0] == b[0] {
      StrLessTotal(a[1..], b[1..]);
      if a[1..] == b[1..] {
        assert a == [a[0]] + a[1..];
        assert b == [b[0]] + b[1..];
      }
    }
  }

  /** Comparing two strings whose first parts have one length compares the
      first parts, and the second parts only on a tie. */
  lemma {:induction false} StrLessAppend(a1: string, a2: string, b1: string, b2: string)
    requires |a1| == |b1|
    ensures StrLess(a1 + a2, b1 + b2) <==> StrLess(a1, b1) || (a1 == b1 && StrLess(a2, b2))
    decreases |a1|
  {
    if |a1| == 0 {
      assert a1 + a2 == a2 && b1 + b2 == b2;
    } else {
      assert (a1 + a2)[0] == a1[0] && (b1 + b2)[0] == b1[0];
      assert (a1 + a2)[1..] == a1[1..] + a2 && (b1 + b2)[1..] == b1[1..] + b2;
      if a1[0] == b1[0] {
        StrLessAppend(a1[1..], a2, b1[1..], b2);
        if a1[1..] == b1[1..] {
          assert a1 == [a1[0]] + a1[1..] && b1 == [b1[0]] + b1[1..];
        }
      }
    }
  }

  lemma StrLessAntisymmetric(a: string, b: string)
    requires StrLessEq(a, b) && StrLessEq(b, a)
    ensures a == b
  {
    if a != b {
      StrLessTransitive(a, b, a);
      StrLessIrreflexive(a);
    }
  }

  /** `a < b` on tuples of strings, compared element by element. */
  predicate KeyLess(a: seq<string>, b: seq<string>)
  {
    if |a| == 0 then |b| > 0
    else if |b| == 0 then false
    else if a[0] != b[0] then StrLess(a[0], b[0])
    else KeyLess(a[1..], b[1..])
  }

  lemma {:induction false} KeyLessIrreflexive(a: seq<string>)
    ensures !KeyLess(a, a)
    decreases |a|
  {
    if |a| > 0 {
      KeyLessIrreflexive(a[1..]);
    }
  }

  lemma {:induction false} KeyLessTransitive(a: seq<string>, b: seq<string>, c: seq<string>)
    requires KeyLess(a, b) && KeyLess(b, c)
    ensures KeyLess(a, c)
    decreases |a|
  {
    if |a| > 0 && |b| > 0 && |c| > 0 {
      if a[0] == b[0] && b[0] == c[0] {
        KeyLessTransitive(a[1..], b[1..], c[1..]);
      } else if a[0] != b[0] && b[0] != c[0] {
        StrLessTransitive(a[0], b[0], c[0]);
        if a[0] == c[0] {
          StrLessIrreflexive(a[0]);
          StrLessTransitive(c[0], b[0], c[0]);
        }
      }
    }
  }

  lemma {:induction false} KeyLessTotal(a: seq<string>, b: seq<string>)
    ensures a == b || KeyLess(a, b) || KeyLess(b, a)
    decreases |a|
  {
    if |a| > 0 && |b| > 0 {
      if a[0] == b[0] {
        KeyLessTotal(a[1..], b[1..]);
        if a[1..] == b[1..] {
          assert a == [a[0]] + a[1..];
          assert b == [b[0]] + b[1..];
        }
      } else {
        StrLessTotal(a[0], b[0]);
      }
    }
  }

  lemma KeyLessAsymmetric(a: seq<string>, b: seq<string>)
    requires KeyLess(a, b)
    ensures !KeyLess(b, a) && a != b
  {
    KeyLessIrreflexive(a);
    if KeyLess(b, a) {
      KeyLessTransitive(a, b, a);
    }
  }

  /** Python's `max()` of a non-empty collection of strings. */
  function MaxStr(xs: seq<string>): (m: string)
    requires |xs| > 0
    ensures m in xs
    ensures forall x :: x in xs ==> StrLessEq(x, m)
  {
    if |xs| == 1 then xs[0]
    else
      var rest := MaxStr(xs[1..]);
      StrLessTotal(xs[0], rest);
      forall x | x in xs[1..] && StrLess(rest, xs[0])
        ensures StrLessEq(x, xs[0])
      {
        if x != rest {
          StrLessTransitive(x, rest, xs[0]);
        }
      }
      if StrLess(rest, xs[0]) then xs[0] else rest
  }
}

=== FILE: load.dfy ===
/** `load_data` (main.py:200-209): read the cached table back, parse the
    dates, recompute the period from the date and sign every amount. */
module Load {
  import opened Wrappers
  import opened Dates
  import opened Normalize

  /** A row as the dashboard sees it: the date is parsed (None for `NaT`). */
  datatype LoadedRow = LoadedRow(concepto: string, tipo: string, fecha: Option<Date>, importe: Option<real>, mes: string)

  /** The text pandas prints for the period of a missing date. */
  const NaT: string := "NaT"

  /** The four categories. */
  const Ingreso: string := "Ingreso"
  const Gasto: string := "Gasto"
  const Ahorro: string := "Ahorro"
  const Inversion: string := "Inversión"

  /** The sign table that maps a category to its direction. */
  const SignTable: map<string, int> := map[Ingreso := 1, Ahorro := 1, Gasto := -1, Inversion := -1]

  /** `Importe.fillna(0)`; also what pandas' `sum()` counts a missing amount as. */
  function Amount(r: LoadedRow): real
  {
    r.importe.GetOr(0.0)
  }

  /** The `Signo` column: the sign table's entry times the amount, or None
      (`NaN`) for a category outside the table. */
  function Signo(r: LoadedRow): (s: Option<real>)
    ensures s.Some? <==> r.tipo == Ingreso || r.tipo == Ahorro || r.tipo == Gasto || r.tipo == Inversion
    ensures s.Some? ==> s.value == Amount(r) || s.value == -Amount(r)
  {
    assert SignTable.Keys == {Ingreso, Ahorro, Gasto, Inversion};
    if r.tipo in SignTable then Some(SignTable[r.tipo] as real * Amount(r)) else None
  }

  /** The signing law: income and savings count positively, expenses and
      investments negatively, a missing amount as zero, and any other
      category has no sign. */
  lemma SignLaw(r: LoadedRow)
    ensures r.tipo == Ingreso || r.tipo == Ahorro ==> Signo(r) == Some(r.importe.GetOr(0.0))
    ensures r.tipo == Gasto || r.tipo == Inversion ==> Signo(r) == Some(-r.importe.GetOr(0.0))
    ensures r.tipo != Ingreso && r.tipo != Ahorro && r.tipo != Gasto && r.tipo != Inversion ==> Signo(r) == None
  {
    assert SignTable.Keys == {Ingreso, Ahorro, Gasto, Inversion};
    if r.tipo == Ingreso || r.tipo == Ahorro {
      assert SignTable[r.tipo] == 1;
    } else if r.tipo == Gasto || r.tipo == Inversion {
      assert SignTable[r.tipo] == -1;
    }
  }

  /** `Fecha.dt.to_period("M").astype(str)`. */
  function MonthOf(fecha: Option<Date>): string
    requires fecha.Some? ==> ValidDate(fecha.value)
  {
    match fecha
    case Some(d) => PeriodLabel(d)
    case None => NaT
  }

  /** One cached row as loaded: the date is parsed leniently and the period
      is recomputed from it — the first seven characters of a date that
      parses, "NaT" otherwise — whatever period the cache held. */
  function LoadRow(row: Row): (r: LoadedRow)
    ensures r.concepto == row.concepto && r.tipo == row.tipo && r.importe == row.importe
    ensures r.fecha == ParseIsoDate(row.fecha)
    ensures r.fecha.Some? ==> r.mes == row.fecha[..7]
    ensures r.fecha.None? ==> r.mes == NaT
  {
    var fecha := ParseIsoDate(row.fecha);
    var loaded := LoadedRow(row.concepto, row.tipo, fecha, row.importe, MonthOf(fecha));
    if fecha.None? then loaded
    else
      PeriodLabelIsPrefix(row.fecha);
      loaded
  }

  /** The cached period column is never trusted: loading overrides it. */
  lemma LoadIgnoresCachedPeriod(row: Row, mes: string)
    ensures LoadRow(row.(mes := mes)) == LoadRow(row)
  {
  }

  /** A period that was derived from the date when the row was flattened is
      reproduced exactly by loading. */
  lemma DerivedPeriodSurvivesLoad(row: Row)
    requires row.fecha != ""
    requires DerivePeriod("", row.fecha) == Success(row.mes)
    ensures LoadRow(row).mes == row.mes
  {
  }

  /** The loaded dataset: None when no cache exists (the page then shows
      nothing), otherwise every cached row loaded, in cache order. */
  function Load(cache: Option<seq<Row>>): (r: Option<seq<LoadedRow>>)
    ensures r.None? <==> cache.None?
    ensures r.Some? ==> |r.value| == |cache.value|
    ensures r.Some? ==> forall i :: 0 <= i < |r.value| ==>
      && r.value[i].concepto == cache.value[i].concepto
      && r.value[i].tipo == cache.value[i].tipo
      && r.value[i].importe == cache.value[i].importe
      && r.value[i].fecha == ParseIsoDate(cache.value[i].fecha)
      && r.value[i].mes == (if r.value[i].fecha.Some? then cache.value[i].fecha[..7] else NaT)
  {
    match cache
    case None => None
    case Some(rows) => Some(seq(|rows|, i requires 0 <= i < |rows| => LoadRow(rows[i])))
  }
}

=== FILE: normalize.dfy ===
/** Flattening one remote record into a table row: the loop body of
    `actualizar_csv` (main.py:170-186). */
module Normalize {
  import opened Wrappers
  import opened Json
  import opened Dates

  /** One row of the cached table: columns Concepto, Tipo, Fecha, Importe, Mes. */
  datatype Row = Row(concepto: string, tipo: string, fecha: string, importe: Option<real>, mes: string)

  /** The exceptions the row loop can raise. */
  datatype NormalizeError =
    | NoProperties          // `row["properties"]` on a record without that key
    | PropertiesNotMapping  // `p.get(...)` on a value that is not a mapping
    | AmountNotMapping      // `.get("number")` on an amount property that is not a mapping
    | UnparsableDate(raw: string)  // `pd.to_datetime(fecha_raw)` on a non-date

  const ConceptoPath: seq<string> := ["Concepto", "title", "plain_text"]
  const TipoPath: seq<string> := ["Tipo", "select", "name"]
  const FechaPath: seq<string> := ["Fecha", "date", "start"]
  const MesPath: seq<string> := ["Mes", "rich_text", "plain_text"]
  const ImporteKey: string := "Importe (€)"

  /** `p.get(name, {})`. */
  function Property(p: map<string, Value>, name: string): Value
  {
    if name in p then p[name] else EmptyObject
  }

  /** `safe_text(p.get(path[0], {}), path[1..])`, read as text. */
  function TextProperty(p: map<string, Value>, path: seq<string>): string
    requires |path| > 0
  {
    TextOf(SafeText(Property(p, path[0]), path[1..]))
  }

  /** Reading a column through `p.get(path[0], {})` is walking the whole
      path from the properties mapping; a missing entry reads as "". */
  lemma TextPropertyWalk(p: map<string, Value>, path: seq<string>)
    requires |path| > 0
    ensures TextProperty(p, path) == TextOf(SafeText(Object(p), path))
    ensures path[0] !in p ==> TextProperty(p, path) == ""
  {
    PropertyThenPath(p, path[0], path[1..]);
    assert path == [path[0]] + path[1..];
    EmptyObjectYieldsEmpty(path[1..]);
  }

  /** `p.get("Importe (€)", {}).get("number", None)`. */
  function AmountProperty(p: map<string, Value>): (r: Result<Option<real>, NormalizeError>)
    ensures r.Failure? <==> ImporteKey in p && !p[ImporteKey].Object?
    ensures r.Failure? ==> r.error == AmountNotMapping
    ensures r.Success? && r.value.Some? ==>
      ImporteKey in p && "number" in p[ImporteKey].fields && p[ImporteKey].fields["number"] == Num(r.value.value)
    ensures ImporteKey !in p ==> r == Success(None)
    ensures ImporteKey in p && p[ImporteKey].Object? && "number" in p[ImporteKey].fields && p[ImporteKey].fields["number"].Num? ==>
      r == Success(Some(p[ImporteKey].fields["number"].n))
  {
    var prop := Property(p, ImporteKey);
    if !prop.Object? then Failure(AmountNotMapping)
    else if "number" in prop.fields && prop.fields["number"].Num? then Success(Some(prop.fields["number"].n))
    else Success(None)
  }

  /** The period label of a new row: an explicit label is kept; otherwise
      the `YYYY-MM` of the date, when there is one; otherwise "". */
  function DerivePeriod(explicit: string, fechaRaw: string): (r: Result<string, NormalizeError>)
    ensures explicit != "" ==> r == Success(explicit)
    ensures explicit == "" && fechaRaw == "" ==> r == Success("")
    ensures explicit == "" && fechaRaw != "" ==> (r.Success? <==> ParseIsoDate(fechaRaw).Some?)
    ensures explicit == "" && fechaRaw != "" && r.Success? ==> r.value == fechaRaw[..7]
    ensures r.Failure? ==> r.error == UnparsableDate(fechaRaw)
  {
    if explicit != "" then Success(explicit)
    else if fechaRaw == "" then Success("")
    else
      match ParseIsoDate(fechaRaw)
      case None => Failure(UnparsableDate(fechaRaw))
      case Some(d) =>
        PeriodLabelIsPrefix(fechaRaw);
        Success(PeriodLabel(d))
  }

  /** The `properties` mapping of a raw record, when it has one. */
  predicate HasPropertyMap(record: Value)
  {
    record.Object? && "properties" in record.fields && record.fields["properties"].Object?
  }

  /** One record flattened into a row (the loop body of `actualizar_csv`).
      It fails only on a malformed record, a non-mapping amount property, or
      a date that must be parsed and cannot be. */
  function NormalizeRecord(record: Value): (r: Result<Row, NormalizeError>)
    ensures !record.Object? || "properties" !in record.fields ==> r == Failure(NoProperties)
    ensures record.Object? && "properties" in record.fields && !record.fields["properties"].Object? ==>
      r == Failure(PropertiesNotMapping)
  {
    if !record.Object? || "properties" !in record.fields then Failure(NoProperties)
    else if !record.fields["properties"].Object? then Failure(PropertiesNotMapping)
    else
      var p := record.fields["properties"].fields;
      var concepto := TextProperty(p, ConceptoPath);
      var tipo := TextProperty(p, TipoPath);
      var fechaRaw := TextProperty(p, FechaPath);
      var importe :- AmountProperty(p);
      var mes :- DerivePeriod(TextProperty(p, MesPath), fechaRaw);
      Success(Row(concepto, tipo, fechaRaw, importe, mes))
  }

  /** A record with a properties mapping is flattened exactly when its
      amount property is a mapping (or absent) and its period can be derived.
      The amount is read first, so a bad amount is reported even when the
      date is bad too; a bad date is reported with its text. */
  lemma NormalizeRecordSucceeds(record: Value)
    requires HasPropertyMap(record)
    ensures var p := record.fields["properties"].fields;
      NormalizeRecord(record).Success? <==>
        AmountProperty(p).Success? && DerivePeriod(TextProperty(p, MesPath), TextProperty(p, FechaPath)).Success?
    ensures var p := record.fields["properties"].fields;
      AmountProperty(p).Failure? ==> NormalizeRecord(record) == Failure(AmountNotMapping)
    ensures var p := record.fields["properties"].fields;
      AmountProperty(p).Success? && DerivePeriod(TextProperty(p, MesPath), TextProperty(p, FechaPath)).Failure? ==>
        NormalizeRecord(record) == Failure(UnparsableDate(TextProperty(p, FechaPath)))
  {
  }

  /** Every text column of a flattened row is the text found by walking the
      whole key path from the record itself (so missing parts give ""), and
      the period follows the derivation rule: an explicit label is kept,
      otherwise the date's `YYYY-MM`, otherwise "". */
  lemma NormalizedRowFields(record: Value)
    requires NormalizeRecord(record).Success?
    ensures var row := NormalizeRecord(record).value;
      && row.concepto == TextOf(SafeText(record, ["properties"] + ConceptoPath))
      && row.tipo == TextOf(SafeText(record, ["properties"] + TipoPath))
      && row.fecha == TextOf(SafeText(record, ["properties"] + FechaPath))
    ensures var row := NormalizeRecord(record).value;
      var explicit := TextOf(SafeText(record, ["properties"] + MesPath));
      && (explicit != "" ==> row.mes == explicit)
      && (explicit == "" && row.fecha != "" ==> ParseIsoDate(row.fecha).Some? && row.mes == row.fecha[..7])
      && (explicit == "" && row.fecha == "" ==> row.mes == "")
  {
    var p := record.fields["properties"].fields;
    PropertiesWalk(record.fields, p, ConceptoPath);
    PropertiesWalk(record.fields, p, TipoPath);
    PropertiesWalk(record.fields, p, FechaPath);
    PropertiesWalk(record.fields, p, MesPath);
    TextPropertyWalk(p, ConceptoPath);
    TextPropertyWalk(p, TipoPath);
    TextPropertyWalk(p, FechaPath);
    TextPropertyWalk(p, MesPath);
  }

  /** The row's amount is the `number` found under the amount property:
      a present amount was found there, and a number found there is the
      row's amount. */
  lemma NormalizedAmount(record: Value)
    requires NormalizeRecord(record).Success?
    ensures var row := NormalizeRecord(record).value;
      row.importe.Some? ==> Lookup(record, ["properties", ImporteKey, "number"]) == Some(Num(row.importe.value))
    ensures forall n: real :: Lookup(record, ["properties", ImporteKey, "number"]) == Some(Num(n)) ==>
      NormalizeRecord(record).value.importe == Some(n)
  {
    var p := record.fields["properties"].fields;
    var row := NormalizeRecord(record).value;
    assert AmountProperty(p) == Success(row.importe);
    var path := ["properties", ImporteKey, "number"];
    assert path[1..] == [ImporteKey, "number"];
    assert path[1..][1..] == ["number"] && path[1..][1..][1..] == [];
    if row.importe.Some? {
      AmountLookup(p);
    }
    forall n: real | Lookup(record, path) == Some(Num(n))
      ensures row.importe == Some(n)
    {
      assert Descend(record, "properties") == Some(Object(p));
      assert Lookup(Object(p), path[1..]) == Some(Num(n));
      assert ImporteKey in p && p[ImporteKey].Object?;
      assert Lookup(p[ImporteKey], ["number"]) == Some(Num(n));
      assert "number" in p[ImporteKey].fields && p[ImporteKey].fields["number"] == Num(n);
    }
  }

  lemma AmountLookup(p: map<string, Value>)
    requires AmountProperty(p).Success? && AmountProperty(p).value.Some?
    ensures Lookup(Object(p), [ImporteKey, "number"]) == Some(Num(AmountProperty(p).value.value))
  {
    var prop := p[ImporteKey];
    var path := [ImporteKey, "number"];
    assert Descend(Object(p), ImporteKey) == Some(prop);
    assert path[1..] == ["number"] && path[1..][1..] == [];
    assert Descend(prop, "number") == Some(Num(AmountProperty(p).value.value));
    assert Lookup(prop, ["number"]) == Some(Num(AmountProperty(p).value.value));
  }

  /** Walking from the record through `properties` is walking from the
      properties mapping. */
  lemma PropertiesWalk(fields: map<string, Value>, p: map<string, Value>, path: seq<string>)
    requires "properties" in fields && fields["properties"] == Object(p)
    ensures SafeText(Object(fields), ["properties"] + path) == SafeText(Object(p), path)
  {
    PropertyThenPath(fields, "properties", path);
  }

  /** Missing means empty: a record whose properties lack a column's entry
      gets "" in that column. */
  lemma MissingPropertyGivesEmptyText(record: Value)
    requires NormalizeRecord(record).Success?
    ensures var p := record.fields["properties"].fields;
      && ("Concepto" !in p ==> NormalizeRecord(record).value.concepto == "")
      && ("Tipo" !in p ==> NormalizeRecord(record).value.tipo == "")
      && ("Fecha" !in p ==> NormalizeRecord(record).value.fecha == "")
      && ("Fecha" !in p && "Mes" !in p ==> NormalizeRecord(record).value.mes == "")
      && (ImporteKey !in p ==> NormalizeRecord(record).value.importe == None)
  {
    var p := record.fields["properties"].fields;
    TextPropertyWalk(p, ConceptoPath);
    TextPropertyWalk(p, TipoPath);
    TextPropertyWalk(p, FechaPath);
    TextPropertyWalk(p, MesPath);
  }

  /** Record `i` is the first one that cannot be flattened, failing with `e`. */
  ghost predicate FirstFailureAt(records: seq<Value>, i: int, e: NormalizeError)
  {
    && 0 <= i < |records|
    && NormalizeRecord(records[i]) == Failure(e)
    && forall j :: 0 <= j < i ==> NormalizeRecord(records[j]).Success?
  }

  lemma FirstFailureShifts(records: seq<Value>, e: NormalizeError)
    requires |records| > 0 && NormalizeRecord(records[0]).Success?
    requires exists i :: FirstFailureAt(records[1..], i, e)
    ensures exists i :: FirstFailureAt(records, i, e)
  {
    var i :| FirstFailureAt(records[1..], i, e);
    var tail := records[1..];
    assert forall j :: 1 <= j < |records| ==> records[j] == tail[j - 1];
    assert FirstFailureAt(records, i + 1, e);
  }

  /** `registros` for all fetched records: the rows in record order, or the
      error of the first record that cannot be flattened. */
  function NormalizeAll(records: seq<Value>): (r: Result<seq<Row>, NormalizeError>)
    ensures r.Success? <==> forall i :: 0 <= i < |records| ==> NormalizeRecord(records[i]).Success?
    ensures r.Success? ==> |r.value| == |records|
    ensures r.Success? ==> forall i :: 0 <= i < |records| ==> r.value[i] == NormalizeRecord(records[i]).value
    ensures r.Failure? ==> exists i :: FirstFailureAt(records, i, r.error)
    decreases |records|
  {
    if |records| == 0 then Success([])
    else
      var head := NormalizeRecord(records[0]);
      if head.Failure? then
        assert FirstFailureAt(records, 0, head.error);
        Failure(head.error)
      else
        var tail := NormalizeAll(records[1..]);
        if tail.Failure? then
          FirstFailureShifts(records, tail.error);
          Failure(tail.error)
        else
          assert forall i :: 1 <= i < |records| ==> records[i] == records[1..][i - 1];
          Success([head.value] + tail.value)
  }
}

=== FILE: views.dfy ===
/** The two views computed inside the plot helpers: investment per period
    against its configured target (main.py:248-250) and the category
    distribution of the latest period (main.py:264-266). */
module Views {
  import opened Wrappers
  import opened LexOrder
  import opened Dates
  import opened Load
  import opened Aggregate

  // ---------------------------------------------------------------------
  // Sums restricted by a selection

  lemma KeyOfCons(r: LoadedRow, c: Column, cols: seq<Column>)
    ensures KeyOf(r, [c] + cols) == [Cell(r, c)] + KeyOf(r, cols)
  {
  }

  /** Summing by key within `df[df[c] == v]` is summing by the longer key
      that starts with `c`. */
  lemma {:induction false} SumWithin(rows: seq<LoadedRow>, c: Column, v: string, cols: seq<Column>, k: seq<string>)
    ensures SumWhere(Where(rows, c, v), cols, k) == SumWhere(rows, [c] + cols, [v] + k)
    decreases |rows|
  {
    if |rows| > 0 {
      var n := |rows| - 1;
      SumWithin(rows[..n], c, v, cols, k);
      SumWithinStep(rows, c, v, cols, k);
    }
  }

  /** The last row contributes to both sides alike. */
  lemma SumWithinStep(rows: seq<LoadedRow>, c: Column, v: string, cols: seq<Column>, k: seq<string>)
    requires |rows| > 0
    ensures var n := |rows| - 1;
      SumWhere(Where(rows, c, v), cols, k) - SumWhere(Where(rows[..n], c, v), cols, k)
      == SumWhere(rows, [c] + cols, [v] + k) - SumWhere(rows[..n], [c] + cols, [v] + k)
  {
    var n := |rows| - 1;
    var x := rows[n];
    KeyOfCons(x, c, cols);
    var w := Where(rows[..n], c, v);
    var key := KeyOf(x, [c] + cols);
    assert key[0] == Cell(x, c) && key[1..] == KeyOf(x, cols);
    assert ([v] + k)[0] == v && ([v] + k)[1..] == k;
    if Cell(x, c) == v {
      assert Where(rows, c, v) == w + [x];
      assert (w + [x])[..|w|] == w;
      assert key == [v] + k <==> KeyOf(x, cols) == k;
    } else {
      assert Where(rows, c, v) == w;
      assert key != [v] + k;
    }
  }

  /** The order of two key columns does not change a sum. */
  lemma {:induction false} SumWhereSwap(rows: seq<LoadedRow>, a: Column, b: Column, x: string, y: string)
    ensures SumWhere(rows, [a, b], [x, y]) == SumWhere(rows, [b, a], [y, x])
    decreases |rows|
  {
    if |rows| > 0 {
      var n := |rows| - 1;
      SumWhereSwap(rows[..n], a, b, x, y);
      assert KeyOf(rows[n], [a, b]) == [Cell(rows[n], a), Cell(rows[n], b)];
      assert KeyOf(rows[n], [b, a]) == [Cell(rows[n], b), Cell(rows[n], a)];
    }
  }

  lemma SingleKeyLess(a: string, b: string)
    requires KeyLess([a], [b])
    ensures StrLess(a, b)
  {
    assert [a][1..] == [] && [b][1..] == [];
  }

  /** A one-column key is present exactly when some selected row has it. */
  lemma SingleKeyPresent(rows: seq<LoadedRow>, c: Column, v: string, c2: Column, w: string)
    ensures [w] in RowKeys(Where(rows, c, v), [c2])
        <==> exists i :: 0 <= i < |rows| && Cell(rows[i], c) == v && Cell(rows[i], c2) == w
  {
    var sel := Where(rows, c, v);
    if [w] in RowKeys(sel, [c2]) {
      var r :| r in sel && KeyOf(r, [c2]) == [w];
      assert KeyOf(r, [c2])[0] == w;
      var i :| 0 <= i < |rows| && rows[i] == r;
    }
    if exists i :: 0 <= i < |rows| && Cell(rows[i], c) == v && Cell(rows[i], c2) == w {
      var i :| 0 <= i < |rows| && Cell(rows[i], c) == v && Cell(rows[i], c2) == w;
      assert rows[i] in rows;
      assert KeyOf(rows[i], [c2]) == [w];
    }
  }

  /** A group of `df[df[c] == v].groupby(c2)` holds the (v, key) sum of the
      two-column grouping. */
  lemma SelectedGroupTotal(rows: seq<LoadedRow>, c: Column, v: string, c2: Column, i: nat)
    requires i < |GroupSum(Where(rows, c, v), [c2])|
    ensures var g := GroupSum(Where(rows, c, v), [c2])[i];
      |g.key| == 1 && g.total == SumWhere(rows, [c, c2], [v, g.key[0]])
  {
    var sel := Where(rows, c, v);
    var gs := GroupSum(sel, [c2]);
    TotalForMember(gs, i);
    assert gs[i] in gs;
    assert gs[i].key in RowKeys(sel, [c2]);
    var r :| r in sel && KeyOf(r, [c2]) == gs[i].key;
    assert gs[i].key == [gs[i].key[0]];
    SumWithin(rows, c, v, [c2], gs[i].key);
    assert [c] + [c2] == [c, c2];
    assert [v] + gs[i].key == [v, gs[i].key[0]];
  }

  // ---------------------------------------------------------------------
  // Investment against target

  /** One bar and one target point of the investment chart. */
  datatype TargetPoint = TargetPoint(mes: string, invested: real, target: real)

  function PointsSum(ps: seq<TargetPoint>): real
  {
    if |ps| == 0 then 0.0 else ps[0].invested + PointsSum(ps[1..])
  }

  /** Pairs every one-column group with the target. */
  function ToPoints(gs: seq<Group>, target: real): (r: seq<TargetPoint>)
    requires forall i :: 0 <= i < |gs| ==> |gs[i].key| == 1
    ensures |r| == |gs|
    ensures forall i :: 0 <= i < |gs| ==> r[i] == TargetPoint(gs[i].key[0], gs[i].total, target)
    ensures PointsSum(r) == GroupsSum(gs)
  {
    if |gs| == 0 then [] else [TargetPoint(gs[0].key[0], gs[0].total, target)] + ToPoints(gs[1..], target)
  }

  /** Investment rows grouped by period; every key is a one-element period. */
  function InvestmentGroups(rows: seq<LoadedRow>): (gs: seq<Group>)
    ensures forall i :: 0 <= i < |gs| ==> |gs[i].key| == 1
  {
    var inv := Where(rows, Tipo, Inversion);
    GroupTotalsAreRowSums(inv, [Mes]);
    GroupSum(inv, [Mes])
  }

  lemma InvestmentPeriodsAscend(rows: seq<LoadedRow>, target: real)
    ensures var r := ToPoints(InvestmentGroups(rows), target);
      forall i, j :: 0 <= i < j < |r| ==> StrLess(r[i].mes, r[j].mes)
  {
    var gs := InvestmentGroups(rows);
    var r := ToPoints(gs, target);
    forall i, j | 0 <= i < j < |r|
      ensures StrLess(r[i].mes, r[j].mes)
    {
      assert gs[i].key == [r[i].mes] && gs[j].key == [r[j].mes];
      SingleKeyLess(r[i].mes, r[j].mes);
    }
  }

  lemma InvestmentPeriodsPresent(rows: seq<LoadedRow>, target: real)
    ensures var r := ToPoints(InvestmentGroups(rows), target);
      (set i | 0 <= i < |r| :: r[i].mes)
      == (set j | 0 <= j < |rows| && rows[j].tipo == Inversion :: rows[j].mes)
  {
    var r := ToPoints(InvestmentGroups(rows), target);
    var shown := set i | 0 <= i < |r| :: r[i].mes;
    var invested := set j | 0 <= j < |rows| && rows[j].tipo == Inversion :: rows[j].mes;
    forall m | m in shown
      ensures m in invested
    {
      var i :| 0 <= i < |r| && r[i].mes == m;
      ShownPeriodIsInvested(rows, target, i);
    }
    forall m | m in invested
      ensures m in shown
    {
      var j :| 0 <= j < |rows| && rows[j].tipo == Inversion && rows[j].mes == m;
      InvestedPeriodIsShown(rows, target, j);
    }
    assert shown == invested;
  }

  lemma ShownPeriodIsInvested(rows: seq<LoadedRow>, target: real, i: nat)
    requires i < |ToPoints(InvestmentGroups(rows), target)|
    ensures exists j :: (0 <= j < |rows| && rows[j].tipo == Inversion
      && rows[j].mes == ToPoints(InvestmentGroups(rows), target)[i].mes)
  {
    var gs := InvestmentGroups(rows);
    var m := ToPoints(gs, target)[i].mes;
    SingleKeyPresent(rows, Tipo, Inversion, Mes, m);
    assert gs[i] in gs && gs[i].key == [m];
  }

  lemma InvestedPeriodIsShown(rows: seq<LoadedRow>, target: real, j: nat)
    requires j < |rows| && rows[j].tipo == Inversion
    ensures exists i :: (0 <= i < |ToPoints(InvestmentGroups(rows), target)|
      && ToPoints(InvestmentGroups(rows), target)[i].mes == rows[j].mes)
  {
    var gs := InvestmentGroups(rows);
    var r := ToPoints(gs, target);
    var m := rows[j].mes;
    SingleKeyPresent(rows, Tipo, Inversion, Mes, m);
    var g :| g in gs && g.key == [m];
    var i :| 0 <= i < |gs| && gs[i] == g;
    assert r[i].mes == m;
  }

  lemma InvestmentPointSums(rows: seq<LoadedRow>, target: real)
    ensures var r := ToPoints(InvestmentGroups(rows), target);
      forall i :: 0 <= i < |r| ==> r[i].invested == SumWhere(rows, [Mes, Tipo], [r[i].mes, Inversion])
  {
    var gs := InvestmentGroups(rows);
    var r := ToPoints(gs, target);
    forall i | 0 <= i < |r|
      ensures r[i].invested == SumWhere(rows, [Mes, Tipo], [r[i].mes, Inversion])
    {
      SelectedGroupTotal(rows, Tipo, Inversion, Mes, i);
      SumWhereSwap(rows, Tipo, Mes, Inversion, r[i].mes);
    }
  }

  /** `df[df["Tipo"] == "Inversión"].groupby("Mes")["Importe"].sum()` with the
      constant `Objetivo` column: one point per period that has investment
      rows, periods ascending, each holding that period's invested amount
      (the cash-flow table's (period, "Inversión") sum) and the same target;
      together the points hold the whole investment total. */
  function InvestmentVsTarget(rows: seq<LoadedRow>, target: real): (r: seq<TargetPoint>)
    ensures forall i :: 0 <= i < |r| ==> r[i].target == target
    ensures forall i, j :: 0 <= i < j < |r| ==> StrLess(r[i].mes, r[j].mes)
    ensures (set i | 0 <= i < |r| :: r[i].mes)
         == (set j | 0 <= j < |rows| && rows[j].tipo == Inversion :: rows[j].mes)
    ensures forall i :: 0 <= i < |r| ==> r[i].invested == SumWhere(rows, [Mes, Tipo], [r[i].mes, Inversion])
    ensures PointsSum(r) == TotalOf(rows, Inversion)
  {
    InvestmentPeriodsAscend(rows, target);
    InvestmentPeriodsPresent(rows, target);
    InvestmentPointSums(rows, target);
    ToPoints(InvestmentGroups(rows), target)
  }

  // ---------------------------------------------------------------------
  // Distribution of the latest period

  /** The `Mes` column. */
  function Months(rows: seq<LoadedRow>): (ms: seq<string>)
    ensures |ms| == |rows|
    ensures forall i :: 0 <= i < |rows| ==> ms[i] == rows[i].mes
  {
    seq(|rows|, i requires 0 <= i < |rows| => rows[i].mes)
  }

  /** `df["Mes"].max()`: the greatest period string present, None (`NaN`)
      for an empty table. */
  function LatestPeriod(rows: seq<LoadedRow>): (r: Option<string>)
    ensures r.None? <==> |rows| == 0
    ensures r.Some? ==> exists i :: 0 <= i < |rows| && rows[i].mes == r.value
    ensures r.Some? ==> forall i :: 0 <= i < |rows| ==> StrLessEq(rows[i].mes, r.value)
  {
    if |rows| == 0 then None
    else
      var ms := Months(rows);
      var m := MaxStr(ms);
      assert forall i :: 0 <= i < |rows| ==> ms[i] in ms;
      Some(m)
  }

  /** The group-by of `df[df["Mes"] == m]` on `Tipo`: exactly the categories
      of the rows of period `m`, each with the (m, category) cash-flow sum,
      adding up to the period's total. */
  lemma PeriodDistribution(rows: seq<LoadedRow>, m: string)
    ensures GroupsSum(GroupSum(Where(rows, Mes, m), [Tipo])) == TotalAmount(Where(rows, Mes, m))
    ensures forall t :: ([t] in KeySet(GroupSum(Where(rows, Mes, m), [Tipo]))
      <==> exists i :: 0 <= i < |rows| && rows[i].mes == m && rows[i].tipo == t)
    ensures var gs := GroupSum(Where(rows, Mes, m), [Tipo]);
      forall i :: 0 <= i < |gs| ==> |gs[i].key| == 1 && gs[i].total == SumWhere(rows, [Mes, Tipo], [m, gs[i].key[0]])
  {
    PeriodCategories(rows, m);
    PeriodCategorySums(rows, m);
  }

  lemma PeriodCategories(rows: seq<LoadedRow>, m: string)
    ensures forall t :: ([t] in KeySet(GroupSum(Where(rows, Mes, m), [Tipo]))
      <==> exists i :: 0 <= i < |rows| && rows[i].mes == m && rows[i].tipo == t)
  {
    forall t
      ensures [t] in KeySet(GroupSum(Where(rows, Mes, m), [Tipo]))
          <==> exists i :: 0 <= i < |rows| && rows[i].mes == m && rows[i].tipo == t
    {
      SingleKeyPresent(rows, Mes, m, Tipo, t);
    }
  }

  lemma PeriodCategorySums(rows: seq<LoadedRow>, m: string)
    ensures var gs := GroupSum(Where(rows, Mes, m), [Tipo]);
      forall i :: 0 <= i < |gs| ==> |gs[i].key| == 1 && gs[i].total == SumWhere(rows, [Mes, Tipo], [m, gs[i].key[0]])
  {
    var gs := GroupSum(Where(rows, Mes, m), [Tipo]);
    forall i | 0 <= i < |gs|
      ensures |gs[i].key| == 1 && gs[i].total == SumWhere(rows, [Mes, Tipo], [m, gs[i].key[0]])
    {
      SelectedGroupTotal(rows, Mes, m, Tipo, i);
    }
  }

  /** The pie of `plot_distribucion_mes`: the category sums of the rows whose
      period is the greatest period string present, in category order;
      empty for an empty table instead of failing. */
  function MonthDistribution(rows: seq<LoadedRow>): (r: seq<Group>)
    ensures |rows| == 0 ==> r == []
    ensures |rows| > 0 ==> |r| > 0 && SortedKeys(r)
    ensures |rows| > 0 ==> forall t :: ([t] in KeySet(r)
      <==> exists i :: 0 <= i < |rows| && rows[i].mes == LatestPeriod(rows).value && rows[i].tipo == t)
    ensures |rows| > 0 ==> forall i :: 0 <= i < |r| ==>
      |r[i].key| == 1 && r[i].total == SumWhere(rows, [Mes, Tipo], [LatestPeriod(rows).value, r[i].key[0]])
    ensures |rows| > 0 ==> GroupsSum(r) == TotalAmount(Where(rows, Mes, LatestPeriod(rows).value))
  {
    var latest := LatestPeriod(rows);
    if latest.None? then []
    else
      var m := latest.value;
      PeriodDistribution(rows, m);
      var gs := GroupSum(Where(rows, Mes, m), [Tipo]);
      var i :| 0 <= i < |rows| && rows[i].mes == m;
      assert [rows[i].tipo] in KeySet(gs);
      gs
  }

  // ---------------------------------------------------------------------
  // Rows as loaded

  /** A row whose period is what loading derives from its date. */
  predicate WellLoaded(r: LoadedRow)
  {
    match r.fecha
    case Some(d) => ValidDate(d) && r.mes == PeriodLabel(d)
    case None => r.mes == NaT
  }

  lemma LoadRowIsWellLoaded(row: Normalize.Row)
    ensures WellLoaded(LoadRow(row))
  {
  }

  /** An undated row. */
  const Undated: LoadedRow := LoadedRow("", Gasto, None, Some(5.0), NaT)
  /** A row dated 5 January 2024. */
  const January: LoadedRow := LoadedRow("", Gasto, Some(Date(2024, 1, 5)), Some(10.0), "2024-01")

  /** As written, one undated row is enough for `max()` to pick "NaT" (an
      upper-case letter sorts after every digit), so the distribution shows
      only the undated rows and leaves out the latest real month. */
  lemma UndatedRowMasksLatestMonth()
    ensures WellLoaded(Undated) && WellLoaded(January)
    ensures LatestPeriod([January, Undated]) == Some(NaT)
    ensures MonthDistribution([January, Undated]) == [Group([Gasto], 5.0)]
  {
    ExampleRowsWellLoaded();
    LatestOfJanuaryAndUndated();
    OnlyUndatedInNaT();
    SingleRowGroup(Undated);
  }

  lemma ExampleRowsWellLoaded()
    ensures WellLoaded(Undated) && WellLoaded(January)
  {
    assert PeriodLabel(Date(2024, 1, 5)) == "2024-01";
  }

  lemma LatestOfJanuaryAndUndated()
    ensures LatestPeriod([January, Undated]) == Some(NaT)
  {
    var rows := [January, Undated];
    assert Months(rows) == ["2024-01", NaT];
    assert !StrLess(NaT, "2024-01");
    assert MaxStr(["2024-01", NaT]) == NaT by {
      assert ["2024-01", NaT][1..] == [NaT];
    }
  }

  lemma OnlyUndatedInNaT()
    ensures Where([January, Undated], Mes, NaT) == [Undated]
  {
    var rows := [January, Undated];
    assert rows[..1] == [January] && [January][..0] == [];
    assert Where([January], Mes, NaT) == [];
  }

  /** One row makes one group: its category and its amount. */
  lemma SingleRowGroup(x: LoadedRow)
    ensures GroupSum([x], [Tipo]) == [Group([x.tipo], Amount(x))]
  {
    assert [x][..0] == [];
    assert KeyOf(x, [Tipo]) == [x.tipo];
    assert GroupSum([x], [Tipo]) == AddTo([], [x.tipo], Amount(x));
  }

  /** The rows that have a date. */
  function Dated(rows: seq<LoadedRow>): (r: seq<LoadedRow>)
    ensures forall x :: x in r <==> x in rows && x.fecha.Some?
  {
    if |rows| == 0 then []
    else
      var n := |rows| - 1;
      assert rows == rows[..n] + [rows[n]];
      Dated(rows[..n]) + (if rows[n].fecha.Some? then [rows[n]] else [])
  }

  /** The latest calendar period: the greatest period among dated rows. */
  function LatestDatedPeriod(rows: seq<LoadedRow>): (r: Option<string>)
    ensures r.None? <==> forall i :: 0 <= i < |rows| ==> rows[i].fecha.None?
    ensures r.Some? ==> exists i :: 0 <= i < |rows| && rows[i].fecha.Some? && rows[i].mes == r.value
    ensures r.Some? ==> forall i :: 0 <= i < |rows| && rows[i].fecha.Some? ==> StrLessEq(rows[i].mes, r.value)
  {
    var dated := Dated(rows);
    assert forall i :: 0 <= i < |rows| && rows[i].fecha.Some? ==> rows[i] in dated;
    var r := LatestPeriod(dated);
    if r.Some? then
      var j :| 0 <= j < |dated| && dated[j].mes == r.value;
      assert dated[j] in dated;
      r
    else r
  }

  /** The latest calendar period is a real `YYYY-MM` label, never "NaT", and
      it agrees with `max()` when every row is dated. */
  lemma LatestDatedPeriodIsCalendar(rows: seq<LoadedRow>)
    requires forall i :: 0 <= i < |rows| ==> WellLoaded(rows[i])
    ensures LatestDatedPeriod(rows).Some? ==> LatestDatedPeriod(rows).value != NaT
    ensures (forall i :: 0 <= i < |rows| ==> rows[i].fecha.Some?) ==> LatestDatedPeriod(rows) == LatestPeriod(rows)
  {
    var r := LatestDatedPeriod(rows);
    if r.Some? {
      var i :| 0 <= i < |rows| && rows[i].fecha.Some? && rows[i].mes == r.value;
      assert |rows[i].mes| == 7;
    }
    if |rows| > 0 && forall i :: 0 <= i < |rows| ==> rows[i].fecha.Some? {
      var a, b := r.value, LatestPeriod(rows).value;
      var j :| 0 <= j < |rows| && rows[j].mes == b;
      var k :| 0 <= k < |rows| && rows[k].fecha.Some? && rows[k].mes == a;
      StrLessAntisymmetric(a, b);
    }
  }

  /** Among well-loaded rows the latest calendar period is the month of a
      dated row, and no dated row falls in a later calendar month. */
  lemma LatestDatedPeriodIsLatestMonth(rows: seq<LoadedRow>)
    requires forall i :: 0 <= i < |rows| ==> WellLoaded(rows[i])
    ensures LatestDatedPeriod(rows).Some? ==>
      exists i ::
        && 0 <= i < |rows| && rows[i].fecha.Some?
        && rows[i].mes == LatestDatedPeriod(rows).value
        && (forall j :: 0 <= j < |rows| && rows[j].fecha.Some? ==> !MonthBefore(rows[i].fecha.value, rows[j].fecha.value))
  {
    var r := LatestDatedPeriod(rows);
    if r.Some? {
      var i :| 0 <= i < |rows| && rows[i].fecha.Some? && rows[i].mes == r.value;
      forall j | 0 <= j < |rows| && rows[j].fecha.Some?
        ensures !MonthBefore(rows[i].fecha.value, rows[j].fecha.value)
      {
        NoLaterMonth(rows[i], rows[j]);
      }
    }
  }

  /** A dated row whose label no dated row exceeds is not in an earlier
      calendar month than any of them. */
  lemma NoLaterMonth(x: LoadedRow, y: LoadedRow)
    requires WellLoaded(x) && WellLoaded(y) && x.fecha.Some? && y.fecha.Some?
    requires StrLessEq(y.mes, x.mes)
    ensures !MonthBefore(x.fecha.value, y.fecha.value)
  {
    PeriodLabelOrder(x.fecha.value, y.fecha.value);
    if StrLess(x.mes, y.mes) {
      StrLessAntisymmetric(x.mes, y.mes);
      StrLessIrreflexive(x.mes);
    }
  }

  /** The distribution of the latest calendar period, as the chart's title
      ("Distribución <period>") intends: the category sums of the rows of
      that period, in category order; empty when no row is dated. */
  function MonthDistributionDated(rows: seq<LoadedRow>): (r: seq<Group>)
    ensures (forall i :: 0 <= i < |rows| ==> rows[i].fecha.None?) ==> r == []
    ensures LatestDatedPeriod(rows).Some? ==> |r| > 0 && SortedKeys(r)
    ensures LatestDatedPeriod(rows).Some? ==> forall t :: ([t] in KeySet(r)
      <==> exists i :: 0 <= i < |rows| && rows[i].mes == LatestDatedPeriod(rows).value && rows[i].tipo == t)
    ensures LatestDatedPeriod(rows).Some? ==> forall i :: 0 <= i < |r| ==>
      |r[i].key| == 1 && r[i].total == SumWhere(rows, [Mes, Tipo], [LatestDatedPeriod(rows).value, r[i].key[0]])
    ensures LatestDatedPeriod(rows).Some? ==>
      GroupsSum(r) == TotalAmount(Where(rows, Mes, LatestDatedPeriod(rows).value))
  {
    var latest := LatestDatedPeriod(rows);
    if latest.None? then []
    else
      var m := latest.value;
      PeriodDistribution(rows, m);
      var gs := GroupSum(Where(rows, Mes, m), [Tipo]);
      var i :| 0 <= i < |rows| && rows[i].fecha.Some? && rows[i].mes == m;
      assert [rows[i].tipo] in KeySet(gs);
      gs
  }

  /** With the corrected period the dated January row is shown. */
  lemma DatedDistributionShowsLatestMonth()
    ensures LatestDatedPeriod([January, Undated]) == Some("2024-01")
    ensures MonthDistributionDated([January, Undated]) == [Group([Gasto], 10.0)]
  {
    LatestDatedIsJanuary();
    OnlyJanuaryInJanuary();
    SingleRowGroup(January);
  }

  lemma LatestDatedIsJanuary()
    ensures LatestDatedPeriod([January, Undated]) == Some("2024-01")
  {
    DatedPair();
    LatestOfJanuary();
  }

  lemma DatedPair()
    ensures Dated([January, Undated]) == [January]
  {
    var rows := [January, Undated];
    assert rows[..1] == [January] && [January][..0] == [];
    assert Dated([January]) == [January];
  }

  lemma LatestOfJanuary()
    ensures LatestPeriod([January]) == Some("2024-01")
  {
    assert Months([January]) == ["2024-01"];
  }

  lemma OnlyJanuaryInJanuary()
    ensures Where([January, Undated], Mes, "2024-01") == [January]
  {
    var rows := [January, Undated];
    assert rows[..1] == [January] && [January][..0] == [];
    assert Where([January], Mes, "2024-01") == [January];
  }
}

=== FILE: wrappers.dfy ===
/** Failure-compatible wrappers shared by every module of the model. */
module Wrappers {

  /** A possibly missing value: Python's `None` or pandas' `NaN`/`NaT`. */
  datatype Option<+T> = None | Some(value: T) {

    /** The wrapped value, or `default` when missing (pandas' `fillna`). */
    function GetOr(default: T): T
    {
      match this
      case Some(v) => v
      case None => default
    }
  }

  /** The outcome of an operation that can raise in the source program. */
  datatype Result<+R, +E> = Success(value: R) | Failure(error: E) {

    predicate IsFailure()
    {
      Failure?
    }

    function PropagateFailure<U>(): Result<U, E>
      requires Failure?
    {
      Failure(error)
    }

    function Extract(): R
      requires Success?
    {
      value
    }
  }
}
